=== FILE: README.md ===
# DripSync core in Dafny

DripSync is a web front end and a small Express back end for an electronic-music event
promoter. This project models the parts of it that carry state or rules:

- **The order store** (`server/orders.ts`). This is an in-memory map from order id to order.
  - Creating an order stores a `pending` order under `ORD-<clock>-<draw>`.
  - Confirming an order marks it `paid` with the supplied transaction id, then runs the ticket step.
  - A failed ticket step answers 500, but the order stays paid.
- **Ticket issuing** (`server/ticket.ts`). This covers the five text lines of the PDF, the output
  path, the mail envelope, and the trace of effects: write the file, send the mail, delete the file.
- **The booking button** (`src/components/BookNowButton.tsx`). This covers the order request body and the
  UPI deep link `upi://pay?pa=…&pn=…&tr=<id>&am=<amount>&cu=INR&tn=Ticket+<encoded note>`.
  - `encodeURIComponent` is modelled with full UTF-8 percent-encoding. Its unescaped set contains the
    unreserved set of section 2.3 of RFC 3986.
  - `decodeURIComponent` is modelled with its UTF-8 validity checks.
- **The event list** (`server/events.ts`). This is an append-only list whose POST spreads the request
  body after a generated `EV-<clock>` id.
- **The catalogue pages.** These cover:
  - the events page's search and drop-down filters, its reset, its counts and its "load more" rule;
  - the home page's featured selections and the team page's core/support split;
  - the status badge and button rules of the event card;
  - skill truncation and social buttons on the team card;
  - the rows and toggle of the "My Bookings" panel.
  The sample catalogue (`src/data/events.ts`) and roster (`src/data/team.ts`) are constants.

Some conventions hold throughout:
- Money is integer paise.
- For amounts below 2^46 rupees (about 7.0 * 10^13 rupees, 7036874417766400 paise) in absolute
  value, JavaScript's number-to-text conversion of an amount (`${amount}`) and `toFixed(2)` are
  exact functions of the paise value. The model uses these exact functions for every amount.
- Clock readings, random draws, the outcome of sending mail and deleting the file, and the
  outcome of the bookings query are all parameters.
- HTTP responses are values: a status and a JSON body.

Module layout:
- `Base`: `Option`, an order-preserving `Filter` and `Take`.
- `Decimal`: number text.
- `Text`: lower-casing, substring search, split and join.
- `UriComponent`: percent-encoding.
- `Orders`, `Ticket`, `Fulfilment`, `EventsApi`, `BookNow`: the server side and the booking button.
- `EventData`, `TeamData`: the fixtures.
- `EventsPage`, `EventCard`, `Selections`, `TeamCard`, `MyBookings`: the pages and cards.

Facts about the routes that the model keeps:
- Creating an order answers 200, Express's default for `res.json`.
- Nothing in a request is validated.
- Confirmation has no status guard: a paid order can be confirmed again.
- `server/orders.ts` awaits its own logging stub, not the ticket module; its import of
  `server/ticket.ts` is commented out. `Orders.ConfirmWithStub` is the route as wired.
  `Fulfilment.ConfirmAndIssue` is the route with the ticket module plugged in.

## Model

| member | source | states |
|---|---|---|
| Orders.OrderId | server/orders.ts:14 | A new id is `ORD-` followed by the clock reading, `-` and the random draw. |
| Orders.OrderIdAlphabet | server/orders.ts:14 | Generated ids contain only digits, `O`, `R`, `D` and `-`. |
| Orders.OrderIdInjective | server/orders.ts:14 | Two generated ids are equal exactly when both the clock readings and the draws are equal. |
| Orders.Create | server/orders.ts:12-17 | Creating stores a `pending` order with no transaction id, carrying the request's event, amount and e-mail and the creation time, under the new id. It answers 200 with exactly the stored order. The key set grows by that id only, and every other order is untouched. |
| Orders.CreateCollisionOverwrites | server/orders.ts:14-15 | When the new id is already taken, the assignment replaces that order, even a paid one. The store keeps its size, and the order under the id is pending again. |
| Orders.CreateAcceptsAnything | server/orders.ts:13-15 | An empty event id and a zero or negative amount are stored and answered 200 like any other request. |
| Orders.CreatePreservesWellFormed | server/orders.ts:15 | Creating keeps two facts true: every order sits under its own id, and pending orders have no transaction id. |
| Orders.MarkPaid | server/orders.ts:28-29 | A confirmed order is `paid` with the supplied transaction id, and its id, event, amount, e-mail and creation time are unchanged. |
| Orders.Confirm | server/orders.ts:20-36 | An unknown id answers 404 `Order not found` and leaves the store as it was. A known id is marked paid, and every other order and the key set stay the same. The answer is 200 `{ok: true, order}` with the updated order when the ticket step succeeds, and 500 `Failed to send ticket` when it fails. |
| Orders.ConfirmWithStub | server/orders.ts:30-42 | As wired, the awaited ticket step is the logging stub, which always resolves. An unknown id is answered 404 `Order not found` and changes nothing; every known id is answered 200 with the paid order. |
| Orders.ConfirmPreservesWellFormed | server/orders.ts:28-29 | Confirmation keeps every order under its own id, and keeps pending orders without a transaction id. |
| Orders.ConfirmKeepsPaid | server/orders.ts:28 | No confirmation turns a paid order back to pending. |
| Orders.ConfirmTwiceOverwritesTxn | server/orders.ts:28-29 | A second confirmation succeeds again: the order stays paid, the newer transaction id replaces the older one, and the store is as if only the second had happened. |
| Orders.ConfirmSameTxnIdempotent | server/orders.ts:28-29 | Confirming again with the same transaction id leaves the store unchanged. |
| Orders.TicketOutcomeDoesNotChangeStore | server/orders.ts:28-34 | The store after confirmation is the same whether the ticket step succeeded or failed. A failure answers 500. |
| Ticket.TxnText | server/ticket.ts:16 | The `Txn:` line shows `N/A` for a missing or empty transaction id, and the id verbatim otherwise. |
| Ticket.FileName | server/ticket.ts:8 | The file name is `ticket-`, the order id and `.pdf`, and it holds no `/` when the id holds none. |
| Ticket.OutPath | server/ticket.ts:8 | The output path starts with the temporary directory. For an id without `/`, its last segment is the file name. |
| Ticket.Lines | server/ticket.ts:11-16 | The PDF has five text lines, and the first is the title `DripSync Ticket`. |
| Ticket.Envelope | server/ticket.ts:27-33 | The mail is sent from the fixed sender to the order's e-mail address with the fixed body text, and its subject is exactly `Your ticket — ` followed by the order id. It has one attachment, whose path is the output path; for an id without `/`, its name is that path's last segment. |
| Ticket.TicketReadsBack | server/ticket.ts:11-16 | The ticket has five lines: the title, then the `Order:`, `Event:`, `Amount: ₹` and `Txn:` lines. Reading them back yields the order's id, event and exact amount, and its transaction text. |
| Ticket.GenerateAndSend | server/ticket.ts:6-37 | The file is written first, then the mail is sent. A delete of the same path happens only after a successful send, as the third effect. The step resolves exactly when both the send and the delete succeed. A failed send rejects with the send failure and deletes nothing. |
| Ticket.AttachmentIsWrittenFile | server/ticket.ts:27-33 | The mail goes to the order's e-mail address and carries one attachment. That attachment is the written file, which is also the file later deleted. |
| Ticket.GeneratedIdAttachmentName | server/ticket.ts:8 | Every id the create route generates gives an attachment name equal to the output path's last segment. |
| Ticket.OutPathInjective | server/ticket.ts:8 | The output path depends on the order id alone, and two orders share a path exactly when they share an id. |
| Fulfilment.ConfirmAndIssue | server/orders.ts:28-35 | With the ticket module plugged in, an unknown id issues no effects, answers 404 and leaves the store alone. A known id is stored paid with the new transaction id. The file is written with the paid order's ticket lines, then mailed to the order's address; the file is deleted only after a successful send. The answer is 200 `{ok: true, order}` with the paid order when both send and delete succeed, and 500 `Failed to send ticket` otherwise. |
| Fulfilment.TicketShowsConfirmedOrder | server/orders.ts:28-31 | The issued ticket is written under the order's id and mailed to its address. It reads back with the new transaction id, or `N/A`. |
| Fulfilment.FailureLeavesOrderPaid | server/orders.ts:28-34 | The order is paid with the new transaction id whatever happens to the mail or the file. The answer is 200 exactly when both succeed, and 500 `Failed to send ticket` otherwise. |
| Fulfilment.DeleteOnlyAfterSend | server/ticket.ts:27-36 | Every delete comes right after a successful send. After a failed send, nothing is deleted. |
| Fulfilment.BookingScenario | server/orders.ts:12-35 | A 250-rupee order for `EV-1` is created pending. Confirming it with `TXN123` and a successful mail answers 200, leaves it paid with that id, mails `a@b.com`, and records three effects. |
| EventsApi.GeneratedId | server/events.ts:6 | A generated event id starts with `EV-`. |
| EventsApi.WithId | server/events.ts:6 | The stored event has the body's fields plus `id`. A body `id` overrides the generated one because the spread comes after it. |
| EventsApi.Post | server/events.ts:5-9 | POST appends exactly one event and keeps the earlier ones and their order. The response is the appended event. |
| EventsApi.PostAll | server/events.ts:5-9 | A series of POSTs appends one event per body, in order, after the existing ones. |
| EventsApi.Get | server/events.ts:11 | GET answers every stored event, in order, and nothing else. |
| EventsApi.GetAfterPosts | server/events.ts:11 | GET lists the earlier events and then every posted one, in insertion order. |
| EventsApi.DuplicateIdsStored | server/events.ts:6-7 | Two bodies with the same `id` are both stored with it: ids are not deduplicated. |
| EventsApi.GeneratedIdsCollide | server/events.ts:6 | Two posts without an `id`, in the same millisecond, get the same generated id. |
| BookNow.OrderRequest | src/components/BookNowButton.tsx:12 | The posted body carries the event id, the price as the amount, and the user's e-mail as the e-mail. |
| BookNow.Note | src/components/BookNowButton.tsx:18 | `tn` is `Ticket+` followed by a payload that percent-decodes to `Order <id>`, and the note holds no `&`. |
| BookNow.PaymentLink | src/components/BookNowButton.tsx:18 | The link is `upi://pay?` followed by the six `name=value` pieces joined with `&`. |
| BookNow.LinkReadsBack | src/components/BookNowButton.tsx:18 | When the id holds no `&`, the link splits into the parameters `pa`, `pn`, `tr`, `am`, `cu` and `tn`, in that order. Their values are the fixed payee `yourvpa@bank`, the fixed name `Your+Name`, the raw order id, the two-decimal amount, `INR` and the note. |
| BookNow.RawOrderIdSplitsOnAmpersand | src/components/BookNowButton.tsx:18 | `tr` is not encoded. An id `A&B` yields seven parameters, with `tr=A` and a stray `B`. |
| BookNow.AmountReadsBack | src/components/BookNowButton.tsx:18 | `am` reads back as the order amount in paise. |
| BookNow.PlainIdNote | src/components/BookNowButton.tsx:18 | For ids of letters, digits and `-`, the note is `Ticket+Order%20<id>`. |
| BookNow.BookingLink | src/components/BookNowButton.tsx:12-18 | The link built from the order the server creates from the button's body has these values: `tr` is the generated id, `am` reads back as the button's price, and `tn` decodes to `Order <generated id>`. |
| Decimal.ToFixed2RoundTrip | src/components/BookNowButton.tsx:18 | `toFixed(2)` of an amount ends in a point and exactly two digits, and reads back to the same number of paise. |
| Decimal.ToFixed2 | src/components/BookNowButton.tsx:18 | `toFixed(2)` text ends in a point and exactly two digits, and starts with `-` exactly for negative amounts. The whole-rupee digits have no leading zero: they are `0` or start with a non-zero digit. |
| Decimal.JsNumberString | server/ticket.ts:15 | The plain number text starts with `-` exactly for negative amounts, and has a point exactly when the amount is not whole rupees. Padding it with zeros (and a point for whole rupees) gives the `toFixed(2)` text. After the sign it starts with a digit, and a leading `0` is the whole integer part. |
| Decimal.JsNumberRoundTrip | server/ticket.ts:15 | The plain number text of an amount reads back to the same number of paise. |
| UriComponent.UnreservedIsUnescaped | src/components/BookNowButton.tsx:18 | Every character that section 2.3 of RFC 3986 calls unreserved is left unescaped. |
| UriComponent.Encode | src/components/BookNowButton.tsx:18 | Encoded text is at least as long as the input, and contains only unescaped characters and `%`, so never `&`, `=` or `#`. |
| UriComponent.Decode | src/components/BookNowButton.tsx:18 | Decoded text is never longer than its input, and is empty only for empty input. |
| UriComponent.DecodePlain | src/components/BookNowButton.tsx:18 | Text without `%` decodes to itself. |
| UriComponent.DecodeEncode | src/components/BookNowButton.tsx:18 | Percent-decoding the percent-encoding of any string gives back that string. |
| Text.ContainsIffOccurs | src/components/pages/EventsPage.tsx:26-28 | `includes` holds exactly when the needle occurs at some position of the haystack. |
| EventData.ParseStatus | src/components/EventCard.tsx:22 | A string names a status exactly when it is `upcoming`, `selling` or `sold-out`. |
| EventData.StatusNameRoundTrip | src/components/EventCard.tsx:22 | Each status's string names that status and no other. |
| EventData.SampleOptionsCover | src/data/events.ts:3-107 | Every sample event's genre and city is one of the filter options. |
| EventsPage.FilteredEvents | src/components/pages/EventsPage.tsx:24-35 | The list is an order-preserving subsequence of the catalogue. It holds an event exactly when the search, genre, city and status tests all accept it, and as many times as the catalogue does. |
| EventsPage.SearchIsSubstring | src/components/pages/EventsPage.tsx:26-28 | The search accepts an event exactly when the lower-cased query occurs in the lower-cased title, venue or city. |
| EventsPage.Keeps | src/components/pages/EventsPage.tsx:24-33 | An event is kept exactly when it matches the search and matches each drop-down that is not on its wildcard. With every drop-down on its wildcard, the search alone decides. In the initial state every event is kept. |
| EventsPage.ShowsEmptyPanel | src/components/pages/EventsPage.tsx:148-186 | The "No Events Found" panel replaces the grid exactly when no catalogue event passes the filters. |
| EventsPage.StatusOptionLabel | src/components/pages/EventsPage.tsx:108-112 | The wildcard option is labelled with its own text. Every other option gets one of `Coming Soon`, `On Sale` or `Sold Out`, never its own value. Any option other than the first three falls back to `Sold Out`. |
| EventsPage.SearchIgnoresCase | src/components/pages/EventsPage.tsx:26-28 | A query and its lower-cased form accept the same events. |
| EventsPage.EmptySearchMatchesAll | src/components/pages/EventsPage.tsx:26-28 | The empty query accepts every event. |
| EventsPage.NarrowingShrinks | src/components/pages/EventsPage.tsx:29-31 | Moving a drop-down from its wildcard (`All`, `All Cities`, `All Status`) to a specific value only removes events and keeps the order of the rest. |
| EventsPage.ClearFilters | src/components/pages/EventsPage.tsx:191-196 | Clear Filters sets the search to empty and each drop-down to its wildcard, whatever the state was. |
| EventsPage.ClearFiltersShowsAll | src/components/pages/EventsPage.tsx:18-21 | In the initial state, and after Clear Filters, the whole catalogue is listed in its order. |
| EventsPage.ResultCount | src/components/pages/EventsPage.tsx:122 | In "Showing N of M events", N never exceeds M, and M is the catalogue size. N equals M exactly when nothing is filtered out. |
| EventsPage.ShowsLoadMore | src/components/pages/EventsPage.tsx:206 | "Load More" appears exactly when at least six events are listed, and never together with the empty panel. |
| EventsPage.StatusOptionsComplete | src/components/pages/EventsPage.tsx:37 | Every status is offered after the wildcard, and the four options have distinct labels. |
| EventsPage.DefaultsAreFirstOptions | src/components/pages/EventsPage.tsx:19-21 | The initial genre, city and status are the first entries of their option lists. |
| EventsPage.SoldOutFixture | src/components/pages/EventsPage.tsx:31 | On the sample catalogue, the `sold-out` status filter lists only the Kolkata event. |
| EventsPage.InitialFixture | src/components/pages/EventsPage.tsx:122 | The initial state shows "6 of 6" and the "Load More" button. |
| EventCard.Render | src/components/EventCard.tsx:167-316 | The card has these properties: it shows the featured badge exactly for featured events, and its button is disabled exactly for sold-out ones. It shows the hover overlay exactly when the button is enabled. Its badge and button texts are the status's badge and button labels: "Sold Out" on both when sold out, and different texts otherwise. |
| EventCard.BadgeLabel | src/components/EventCard.tsx:167-168 | The badge reads `Coming Soon`, `On Sale` or `Sold Out` exactly for an upcoming, selling or sold-out event. |
| EventCard.ButtonLabel | src/components/EventCard.tsx:304-313 | The button reads `Sold Out`, `Notify Me` or `Book Now` exactly for a sold-out, upcoming or selling event. |
| EventCard.ButtonDisabled | src/components/EventCard.tsx:288 | The button is disabled exactly for a sold-out event. |
| EventCard.ShowsHoverOverlay | src/components/EventCard.tsx:294 | The hover overlay is shown exactly when the event is not sold out. |
| EventCard.BadgeLabelRoundTrip | src/components/EventCard.tsx:167-168 | The badge is a one-to-one map: `Coming Soon`, `On Sale` and `Sold Out` each identify their status. |
| EventCard.SoldOutTextIffSoldOut | src/components/EventCard.tsx:294 | For the three status values, the text includes `sold-out` exactly when the status is `sold-out`. |
| EventCard.ButtonFollowsStatus | src/components/EventCard.tsx:284-316 | The button is disabled exactly for `sold-out`. Its text is `Sold Out`, `Notify Me` or `Book Now` for `sold-out`, `upcoming` and `selling`. |
| EventCard.BadgeMatchesFilterOption | src/components/EventCard.tsx:167-168 | The card's badge text equals the events page's filter-option label for the same status. |
| EventCard.SampleCards | src/components/EventCard.tsx:174 | Among the sample events, only the first and third show the featured badge, and only the last has a disabled button. |
| Selections.FeaturedEvents | src/components/pages/HomePage.tsx:39 | The home page shows at most three events, each featured and from the catalogue. |
| Selections.FeaturedEventsArePrefix | src/components/pages/HomePage.tsx:39 | They are the first `min(3, k)` featured events in catalogue order, where `k` is the number of featured events. |
| Selections.CoreTeam | src/components/pages/HomePage.tsx:40 | The core team is exactly the featured members, in roster order. The same expression is used on the team page. |
| Selections.SupportTeam | src/components/pages/TeamPage.tsx:17 | The support team is exactly the members not featured, a missing flag included, in roster order. |
| Selections.TeamsPartitionRoster | src/components/pages/TeamPage.tsx:16-17 | The two teams share no member. Their sizes add up to the roster's, and their multisets add up to the roster's. |
| Selections.SampleFeaturedEvents | src/components/pages/HomePage.tsx:39 | On the sample catalogue, the home page features the Mumbai and Bangalore events. |
| Selections.SampleCoreTeam | src/components/pages/TeamPage.tsx:16 | On the roster, the core team is the first two members. |
| Selections.SampleSupportTeam | src/components/pages/TeamPage.tsx:17 | On the roster, the support team is the other four members, in order. |
| TeamCard.ShownSkills | src/components/TeamCard.tsx:287 | The card shows the first `min(4, n)` skills. |
| TeamCard.Overflow | src/components/TeamCard.tsx:309-320 | The overflow badge is present exactly when there are more than four skills. Its count plus the shown skills is the number of skills. |
| TeamCard.SkillsSplit | src/components/TeamCard.tsx:287-320 | The shown skills followed by the hidden ones are all the skills, and the badge counts the hidden ones. |
| TeamCard.OverflowText | src/components/TeamCard.tsx:320 | The badge text is `+`, a count and ` more`. The count has no leading zero and reads back as the number it was made from. |
| TeamCard.IconOfInjective | src/components/TeamCard.tsx:24-29 | Every platform key has an icon, and different keys have different icons. |
| TeamCard.IconOf | src/components/TeamCard.tsx:24-29 | Each platform gets its own icon, as an exact correspondence: Twitter, Instagram and LinkedIn their namesakes, and Spotify, only it, the `Music` icon. |
| TeamCard.SocialButtons | src/components/TeamCard.tsx:166-167 | There is one button per handle, in the record's key order, with that key's icon and handle. |
| TeamCard.ButtonPerHandle | src/components/TeamCard.tsx:166-167 | A platform has a button exactly when the member has a handle for it. |
| TeamCard.CoreBadgeIffCoreTeam | src/components/TeamCard.tsx:132 | The "Core Team" badge shows exactly on the members the pages list as the core team. |
| TeamCard.SampleCardsShowAllSkills | src/data/team.ts:17-95 | No roster member has more than four skills, so every card shows all of them and no overflow badge. |
| TeamCard.SampleSocialOrder | src/data/team.ts:90-92 | The last member's buttons come in the record's key order: LinkedIn, then Instagram. |
| MyBookings.FirstEvent | src/components/MyBookings.tsx:56 | A row uses the first joined event. It uses none when the join is null or empty. |
| MyBookings.PriceText | src/components/MyBookings.tsx:62 | A missing price shows `N/A`. A present price, zero included, shows `₹` followed by the number. |
| MyBookings.PriceTextReadsBack | src/components/MyBookings.tsx:62 | A shown price reads back as the booked amount. |
| MyBookings.ZeroPriceShown | src/components/MyBookings.tsx:62 | A price of zero shows as `₹0`. |
| MyBookings.RenderRow | src/components/MyBookings.tsx:56-63 | Without a joined event, the row shows `Unknown Event` and `N/A` three times. With one, each missing field falls back the same way. The transaction id is always shown verbatim. |
| MyBookings.EmptyJoinFallbacks | src/components/MyBookings.tsx:59-63 | A booking whose join is null or empty shows every fallback and its transaction id. |
| MyBookings.Toggle | src/components/MyBookings.tsx:47 | The button flips `show` and keeps the user and the fetched bookings. |
| MyBookings.ToggleTwice | src/components/MyBookings.tsx:47-49 | Two clicks restore the state. The label reads "Hide My Bookings" exactly when the panel is shown, and each click changes the label. |
| MyBookings.ToggleLabel | src/components/MyBookings.tsx:49 | The label is `Hide My Bookings` or `Show My Bookings`, and says `Hide` exactly when a click will hide the panel. |
| MyBookings.ShouldFetch | src/components/MyBookings.tsx:28-41 | A render runs the query only when the panel is shown, and then exactly when it is the first render, the panel has just opened or the user has changed. A render that keeps both `userId` and `show` runs no query. |
| MyBookings.OnFetched | src/components/MyBookings.tsx:36-37 | A successful query replaces the bookings. An error keeps the previous ones. |
| MyBookings.RenderPanel | src/components/MyBookings.tsx:52-66 | The panel is present exactly while shown. `No bookings yet.` appears exactly when the list is empty. The panel holds one row per booking, in order. |
| MyBookings.OpenAndFetch | src/components/MyBookings.tsx:28-49 | Mounting runs no query, and opening the panel runs one. The render that shows the answer runs no second query, and closing the panel runs none. After a successful fetch, the panel lists one row per fetched booking and shows the empty message only for an empty answer. |

## Left out

- Express routing, JSON body parsing and HTTP transport: requests and responses are values.
- EventsApi.WithId: event field values are flat JSON values with integer numbers. Arrays, nested
  objects and fractional numbers in a posted body are not represented.
- `Number(amount)` on arbitrary request values (NaN, strings): amounts are integers of paise.
- Ticket.TxnText: the transaction id is modelled as an optional string. In the source any falsy
  JSON value (`0`, `false`, `null`) also prints `N/A`, and other non-strings print their JavaScript text.
- Binary floating point: `toFixed(2)` rounding of amounts that are not whole paise, and loss of
  exactness from 2^46 rupees (7036874417766400 paise) upwards. There neighbouring doubles are
  more than 0.01 apart, so the stored rupee amount is not the intended one: 7036874417766401
  paise is held as 70368744177664.015625 and printed as `70368744177664.02`.
- Prototype keys of the plain-object store: an id such as `toString` finds an inherited value
  in `ORDERS`, which the model's map does not have.
- `Date.now()`, `Math.random()` and `new Date()`: the clock reading, the draw and the creation time are parameters.
- `path.join` normalisation: the output path is the temporary directory, `/`, and the file
  name. `..` segments and `/` inside an id are not resolved.
- PDF layout and fonts, the SMTP transport and the file system: they are effects in a trace.
  The success of the send and of the delete is a parameter; the write always succeeds.
- Ticket.GenerateAndSend: the PDF write is assumed to succeed. An `error` event of the write
  stream is unhandled in the source, so it would not become a 500 answer.
- Interleaving of requests at the `await` of the confirm route (`server/orders.ts:31`): while one
  confirmation waits for its ticket, another may confirm the same order, so the first 200 body
  can carry the second transaction id. The model runs each request to completion.
- The unawaited end of the PDF stream before the mail is sent. This is a race between two
  asynchronous operations that the model does not represent.
- The unused `upi` variable on line 16 of the booking button, and its `window.location` navigation.
- The Supabase query of the bookings panel, including its filter by user and its ordering: the
  fetched rows or an error are a parameter.
- `toLowerCase` beyond ASCII: the search folds `A`-`Z` only.
- Images, bios, animation, hover and layout state of the pages and cards.
- Remaining UI components (hero, header, footer, logo, services and contact pages, admin
  dashboard, authentication): presentation or foreign-library code with no rules of their own.

=== FILE: base.dfy ===
/** Shared building blocks: an optional value and order-preserving sequence filters. */
module Base {

  /** A value that may be missing, used for JavaScript's `undefined`/`null`. */
  datatype Option<+T> = None | Some(value: T)
  {
    /** The wrapped value, or `default` when missing (JavaScript's `??`). */
    function GetOr(default: T): T
    {
      match this
      case Some(v) => v
      case None => default
    }
  }

  /** `a` is obtained from `b` by deleting elements and keeping the rest in their order. */
  ghost predicate IsSubsequence<T>(a: seq<T>, b: seq<T>)
    decreases |b|
  {
    |a| == 0 || (|b| > 0 && ((a[0] == b[0] && IsSubsequence(a[1..], b[1..])) || IsSubsequence(a, b[1..])))
  }

  /** The elements of `s` satisfying `p`, in their original order: JavaScript's `Array.prototype.filter`. */
  function Filter<T>(s: seq<T>, p: T -> bool): (r: seq<T>)
    ensures |r| <= |s|
    ensures forall i :: 0 <= i < |r| ==> r[i] in s && p(r[i])
    ensures forall i :: 0 <= i < |s| && p(s[i]) ==> s[i] in r
    ensures IsSubsequence(r, s)
    decreases |s|
  {
    if |s| == 0 then []
    else
      var rest := Filter(s[1..], p);
      if p(s[0]) then [s[0]] + rest else rest
  }

  /** JavaScript's `slice(0, k)`: the first `min(k, |s|)` elements. */
  function Take<T>(s: seq<T>, k: nat): (r: seq<T>)
    ensures |r| == if k < |s| then k else |s|
    ensures forall i :: 0 <= i < |r| ==> r[i] == s[i]
  {
    if k < |s| then s[..k] else s
  }

  /** A subsequence is never longer than the sequence it is taken from, and keeps only its elements. */
  lemma {:induction false} SubsequenceBounds<T>(a: seq<T>, b: seq<T>)
    requires IsSubsequence(a, b)
    ensures |a| <= |b|
    ensures forall x :: x in a ==> x in b
    decreases |b|
  {
    if |a| != 0 {
      if a[0] == b[0] && IsSubsequence(a[1..], b[1..]) {
        SubsequenceBounds(a[1..], b[1..]);
        forall x | x in a ensures x in b {
          if x != a[0] {
            assert x in a[1..];
          }
        }
      } else {
        SubsequenceBounds(a, b[1..]);
      }
    }
  }

  /** Filtering by `p` and by a `q` that is its complement on `s` splits `s` into two parts that together hold exactly its elements. */
  lemma FilterPartition<T>(s: seq<T>, p: T -> bool, q: T -> bool)
    requires forall x :: x in s ==> q(x) == !p(x)
    ensures |Filter(s, p)| + |Filter(s, q)| == |s|
    ensures multiset(Filter(s, p)) + multiset(Filter(s, q)) == multiset(s)
  {
    FilterSplitsMultiset(s, p, q);
    assert |multiset(Filter(s, p)) + multiset(Filter(s, q))| == |multiset(s)|;
  }

  lemma {:induction false} FilterSplitsMultiset<T>(s: seq<T>, p: T -> bool, q: T -> bool)
    requires forall x :: x in s ==> q(x) == !p(x)
    ensures multiset(Filter(s, p)) + multiset(Filter(s, q)) == multiset(s)
    decreases |s|
  {
    if |s| != 0 {
      var x, t := s[0], s[1..];
      FilterSplitsMultiset(t, p, q);
      var head := multiset{x};
      var rest := multiset(Filter(t, p)) + multiset(Filter(t, q));
      assert multiset(s) == head + multiset(t) by {
        assert s == [x] + t;
      }
      if p(x) {
        assert multiset(Filter(s, p)) + multiset(Filter(s, q)) == head + rest by {
          assert Filter(s, p) == [x] + Filter(t, p);
          assert Filter(s, q) == Filter(t, q);
        }
      } else {
        assert multiset(Filter(s, p)) + multiset(Filter(s, q)) == head + rest by {
          assert Filter(s, q) == [x] + Filter(t, q);
          assert Filter(s, p) == Filter(t, p);
        }
      }
    }
  }

  /** Filtering keeps every copy of an element `p` accepts and no copy of one it rejects. */
  lemma {:induction false} FilterMultiset<T>(s: seq<T>, p: T -> bool)
    ensures forall x :: multiset(Filter(s, p))[x] == if p(x) then multiset(s)[x] else 0
    decreases |s|
  {
    if |s| != 0 {
      var t := s[1..];
      FilterMultiset(t, p);
      assert s == [s[0]] + t;
      if p(s[0]) {
        assert Filter(s, p) == [s[0]] + Filter(t, p);
      }
    }
  }

  /** A weaker predicate keeps more: filtering by `p` yields a subsequence of filtering by `q`. */
  lemma {:induction false} FilterMonotone<T>(s: seq<T>, p: T -> bool, q: T -> bool)
    requires forall x :: x in s && p(x) ==> q(x)
    ensures IsSubsequence(Filter(s, p), Filter(s, q))
    decreases |s|
  {
    if |s| != 0 {
      FilterMonotone(s[1..], p, q);
      var a, b := Filter(s[1..], p), Filter(s[1..], q);
      if p(s[0]) {
        assert ([s[0]] + a)[1..] == a;
        assert ([s[0]] + b)[1..] == b;
      } else if q(s[0]) {
        assert ([s[0]] + b)[1..] == b;
      }
    }
  }

  /** A predicate that holds of every element keeps the whole sequence. */
  lemma {:induction false} FilterAll<T>(s: seq<T>, p: T -> bool)
    requires forall x :: x in s ==> p(x)
    ensures Filter(s, p) == s
    decreases |s|
  {
    if |s| != 0 {
      FilterAll(s[1..], p);
      assert s == [s[0]] + s[1..];
    }
  }
}

=== FILE: book_now.dfy ===
/**
 * The booking button (`src/components/BookNowButton.tsx`): the body it posts to create an
 * order, and the UPI payment link it opens for the order it gets back.
 */
module BookNow {
  import opened Base
  import opened Decimal
  import Text
  import UriComponent
  import Orders

  const Payee := "yourvpa@bank"
  const PayeeName := "Your+Name"
  const Currency := "INR"
  const Scheme := "upi://pay?"

  /** The body posted to `/api/orders`: the event, the price as the amount, and the user's address. */
  function OrderRequest(eventId: string, price: int, userEmail: string): (req: Orders.CreateRequest)
    ensures req.eventId == eventId && req.amount == price && req.email == userEmail
  {
    Orders.CreateRequest(eventId, price, userEmail)
  }

  /** The transaction note: `Ticket+` and the percent-encoding of `Order <id>`. */
  function Note(orderId: string): (n: string)
    ensures |n| >= 7 && n[..7] == "Ticket+"
    ensures UriComponent.Decode(n[7..]) == Some("Order " + orderId)
    ensures '&' !in n
  {
    var e := UriComponent.Encode("Order " + orderId);
    UriComponent.DecodeEncode("Order " + orderId);
    assert forall i :: 0 <= i < |e| ==> e[i] != '&';
    "Ticket+" + e
  }

  /** The deep link opened after the order is created; `amount` is in paise. */
  function PaymentLink(orderId: string, amount: int): (link: string)
    ensures link == Scheme + Text.Join(Pieces(orderId, amount), '&')
  {
    QueryShape(Scheme, "pa=" + Payee, "&pn=", PayeeName, "&tr=", orderId, "&am=", ToFixed2(amount),
               "&cu=", Currency, "&tn=", Note(orderId));
    assert Scheme + "pa=" + Payee == Scheme + ("pa=" + Payee);
    Scheme + "pa=" + Payee + "&pn=" + PayeeName + "&tr=" + orderId + "&am=" + ToFixed2(amount)
    + "&cu=" + Currency + "&tn=" + Note(orderId)
  }

  /** The parameters the link is meant to carry, in order. */
  function Parameters(orderId: string, amount: int): seq<(string, string)>
  {
    [("pa", Payee), ("pn", PayeeName), ("tr", orderId), ("am", ToFixed2(amount)), ("cu", Currency), ("tn", Note(orderId))]
  }

  /** Reads a `upi://pay?` link back into its `key=value` parameters, split at `&` and at each first `=`. */
  function ParseLink(link: string): Option<seq<(string, string)>>
  {
    if |link| >= |Scheme| && link[..|Scheme|] == Scheme then
      var pieces := Text.Split(link[|Scheme|..], '&');
      Some(seq(|pieces|, i requires 0 <= i < |pieces| => Text.SplitFirst(pieces[i], '=')))
    else None
  }

  /** A `key=value` piece is free of `&` when its value is. */
  lemma PieceHasNoAmpersand(key: string, value: string)
    requires '&' !in key && '&' !in value
    ensures '&' !in key + "=" + value
  {
  }

  lemma AmountHasNoAmpersand(amount: int)
    ensures '&' !in ToFixed2(amount)
  {
    var m := Abs(amount);
    var w := NatToString(m / 100);
    var f := TwoDigits(m % 100);
    forall i | 0 <= i < |w| ensures w[i] != '&' {
      assert IsDigit(w[i]);
    }
    forall i | 0 <= i < |f| ensures f[i] != '&' {
      assert IsDigit(f[i]);
    }
    assert ToFixed2(amount) == Sign(amount) + w + "." + f;
  }

  /** The query part of a link, as its `&`-separated pieces. */
  function Pieces(orderId: string, amount: int): seq<string>
  {
    ["pa=" + Payee, "pn=" + PayeeName, "tr=" + orderId, "am=" + ToFixed2(amount), "cu=" + Currency, "tn=" + Note(orderId)]
  }

  lemma Join6(a: string, b: string, c: string, d: string, e: string, f: string, sep: char)
    ensures Text.Join([a, b, c, d, e, f], sep) == a + [sep] + (b + [sep] + (c + [sep] + (d + [sep] + (e + [sep] + f))))
  {
    Text.JoinCons(e, [f], sep);
    assert [e, f] == [e] + [f];
    Text.JoinCons(d, [e, f], sep);
    assert [d, e, f] == [d] + [e, f];
    Text.JoinCons(c, [d, e, f], sep);
    assert [c, d, e, f] == [c] + [d, e, f];
    Text.JoinCons(b, [c, d, e, f], sep);
    assert [b, c, d, e, f] == [b] + [c, d, e, f];
    Text.JoinCons(a, [b, c, d, e, f], sep);
    assert [a, b, c, d, e, f] == [a] + [b, c, d, e, f];
  }

  lemma AmpKey(k: string, v: string)
    requires |k| >= 1 && k[0] == '&'
    ensures k + v == ['&'] + (k[1..] + v)
  {
    assert k == ['&'] + k[1..];
  }

  /** A template `s a0 k1 v1 ... k5 v5` whose keys `ki` start with `&` is `s` followed by six `&`-joined pieces. */
  lemma QueryShape(s: string, a0: string, k1: string, v1: string, k2: string, v2: string, k3: string, v3: string,
                   k4: string, v4: string, k5: string, v5: string)
    requires |k1| >= 1 && k1[0] == '&' && |k2| >= 1 && k2[0] == '&' && |k3| >= 1 && k3[0] == '&'
    requires |k4| >= 1 && k4[0] == '&' && |k5| >= 1 && k5[0] == '&'
    ensures s + a0 + k1 + v1 + k2 + v2 + k3 + v3 + k4 + v4 + k5 + v5
         == s + Text.Join([a0, k1[1..] + v1, k2[1..] + v2, k3[1..] + v3, k4[1..] + v4, k5[1..] + v5], '&')
  {
    Join6(a0, k1[1..] + v1, k2[1..] + v2, k3[1..] + v3, k4[1..] + v4, k5[1..] + v5, '&');
    AmpKey(k1, v1);
    AmpKey(k2, v2);
    AmpKey(k3, v3);
    AmpKey(k4, v4);
    AmpKey(k5, v5);
  }

  /**
   * Reading the link back gives `pa`, `pn`, `tr`, `am`, `cu` and `tn` in that order, with the
   * fixed payee, payee name and currency, the raw order id, the amount and the note, provided
   * the raw id holds no `&`.
   */
  lemma {:induction false} LinkReadsBack(orderId: string, amount: int)
    requires '&' !in orderId
    ensures ParseLink(PaymentLink(orderId, amount)) == Some(Parameters(orderId, amount))
  {
    var pieces := Pieces(orderId, amount);
    var params := Parameters(orderId, amount);
    PiecesRead(orderId, amount);
    ParseJoined(pieces);
    assert seq(|pieces|, i requires 0 <= i < |pieces| => Text.SplitFirst(pieces[i], '=')) == params;
  }

  /** Each piece of a link is free of `&` and splits at its first `=` into its parameter. */
  lemma PiecesRead(orderId: string, amount: int)
    requires '&' !in orderId
    ensures var pieces, params := Pieces(orderId, amount), Parameters(orderId, amount);
            forall i :: 0 <= i < 6 ==> '&' !in pieces[i] && Text.SplitFirst(pieces[i], '=') == params[i]
  {
    var am, tn := ToFixed2(amount), Note(orderId);
    AmountHasNoAmpersand(amount);
    PiecesWith(orderId, am, tn);
  }

  /** The six pieces for given `tr`, `am` and `tn` values free of `&` read back as their parameters. */
  lemma PiecesWith(orderId: string, am: string, tn: string)
    requires '&' !in orderId && '&' !in am && '&' !in tn
    ensures var pieces := ["pa=" + Payee, "pn=" + PayeeName, "tr=" + orderId, "am=" + am, "cu=" + Currency, "tn=" + tn];
            var params := [("pa", Payee), ("pn", PayeeName), ("tr", orderId), ("am", am), ("cu", Currency), ("tn", tn)];
            forall i :: 0 <= i < 6 ==> '&' !in pieces[i] && Text.SplitFirst(pieces[i], '=') == params[i]
  {
    var params := [("pa", Payee), ("pn", PayeeName), ("tr", orderId), ("am", am), ("cu", Currency), ("tn", tn)];
    PiecesOfParameters(params, ["pa=" + Payee, "pn=" + PayeeName, "tr=" + orderId, "am=" + am, "cu=" + Currency, "tn=" + tn]);
  }

  /** `key=value` pieces with `&`-free parts and `=`-free keys are `&`-free and split back into their parameters. */
  lemma PiecesOfParameters(params: seq<(string, string)>, pieces: seq<string>)
    requires |pieces| == |params|
    requires forall i :: 0 <= i < |params| ==> pieces[i] == params[i].0 + "=" + params[i].1
    requires forall p :: p in params ==> '&' !in p.0 && '&' !in p.1 && '=' !in p.0
    ensures forall i :: 0 <= i < |pieces| ==> '&' !in pieces[i] && Text.SplitFirst(pieces[i], '=') == params[i]
  {
    forall i | 0 <= i < |pieces| ensures '&' !in pieces[i] && Text.SplitFirst(pieces[i], '=') == params[i] {
      assert params[i] in params;
      PieceHasNoAmpersand(params[i].0, params[i].1);
      Text.SplitFirstAt(params[i].0, '=', params[i].1);
    }
  }

  /** A link made of the scheme and `&`-free pieces reads back piece by piece. */
  lemma ParseJoined(pieces: seq<string>)
    requires |pieces| >= 1
    requires forall i :: 0 <= i < |pieces| ==> '&' !in pieces[i]
    ensures ParseLink(Scheme + Text.Join(pieces, '&'))
            == Some(seq(|pieces|, i requires 0 <= i < |pieces| => Text.SplitFirst(pieces[i], '=')))
  {
    var link := Scheme + Text.Join(pieces, '&');
    Text.SplitJoin(pieces, '&');
    assert link[..|Scheme|] == Scheme;
    assert link[|Scheme|..] == Text.Join(pieces, '&');
  }

  /** Cutting the third of six pieces at an `&` does not change their `&`-join. */
  lemma JoinCutThird(a: string, b: string, x: string, y: string, d: string, e: string, f: string)
    ensures Text.Join([a, b, x + "&" + y, d, e, f], '&') == Text.Join([a, b, x, y, d, e, f], '&')
  {
    var rest := Text.Join([d, e, f], '&');
    Text.JoinCons(y, [d, e, f], '&');
    assert [y, d, e, f] == [y] + [d, e, f];
    Text.JoinCons(x, [y, d, e, f], '&');
    assert [x, y, d, e, f] == [x] + [y, d, e, f];
    Text.JoinCons(x + "&" + y, [d, e, f], '&');
    assert [x + "&" + y, d, e, f] == [x + "&" + y] + [d, e, f];
    assert Text.Join([x + "&" + y, d, e, f], '&') == Text.Join([x, y, d, e, f], '&');
    Text.JoinCons(b, [x + "&" + y, d, e, f], '&');
    assert [b, x + "&" + y, d, e, f] == [b] + [x + "&" + y, d, e, f];
    Text.JoinCons(b, [x, y, d, e, f], '&');
    assert [b, x, y, d, e, f] == [b] + [x, y, d, e, f];
    Text.JoinCons(a, [b, x + "&" + y, d, e, f], '&');
    assert [a, b, x + "&" + y, d, e, f] == [a] + [b, x + "&" + y, d, e, f];
    Text.JoinCons(a, [b, x, y, d, e, f], '&');
    assert [a, b, x, y, d, e, f] == [a] + [b, x, y, d, e, f];
  }

  /** The order id goes into `tr` unencoded, so an id containing `&` cuts that parameter short and adds a stray piece. */
  lemma RawOrderIdSplitsOnAmpersand(amount: int)
    ensures var ps := ParseLink(PaymentLink("A&B", amount));
            ps.Some? && |ps.value| == 7 && ps.value[2] == ("tr", "A") && ps.value[3] == ("B", "")
  {
    var id, tr, stray := "A&B", "tr=A", "B";
    var p := Pieces(id, amount);
    var q := [p[0], p[1], tr, stray, p[3], p[4], p[5]];
    assert p[2] == tr + "&" + stray;
    JoinCutThird(p[0], p[1], tr, stray, p[3], p[4], p[5]);
    assert p == [p[0], p[1], tr + "&" + stray, p[3], p[4], p[5]];
    AmountHasNoAmpersand(amount);
    PieceHasNoAmpersand("am", ToFixed2(amount));
    PieceHasNoAmpersand("tn", Note(id));
    assert forall i :: 0 <= i < |q| ==> '&' !in q[i];
    ParseJoined(q);
    Text.SplitFirstAt("tr", '=', "A");
    assert Text.SplitFirst(stray, '=') == (stray, "");
  }

  /** The `am` value reads back as the order amount with exactly two decimals. */
  lemma AmountReadsBack(orderId: string, amount: int)
    requires '&' !in orderId
    ensures var ps := ParseLink(PaymentLink(orderId, amount));
            ps.Some? && |ps.value| == 6 && ps.value[3].0 == "am" && ParseFixed2(ps.value[3].1) == Some(amount)
  {
    LinkReadsBack(orderId, amount);
    ToFixed2RoundTrip(amount);
  }


  /** For an id of letters, digits and `-` the note is `Ticket+Order%20<id>`. */
  lemma PlainIdNote(orderId: string)
    requires forall i :: 0 <= i < |orderId| ==>
               UriComponent.IsAsciiAlpha(orderId[i]) || IsDigit(orderId[i]) || orderId[i] == '-'
    ensures Note(orderId) == "Ticket+" + "Order%20" + orderId
  {
    var word, space, escaped := "Order", " ", "%20";
    assert word + space == "Order ";
    assert word + escaped == "Order%20";
    EncodeThree(word, space, orderId);
    EncodeWord();
    EncodeSpace();
    EncodePlainId(orderId);
    assert UriComponent.Encode("Order " + orderId) == word + escaped + orderId;
  }

  lemma EncodeThree(a: string, b: string, c: string)
    ensures UriComponent.Encode(a + b + c) == UriComponent.Encode(a) + UriComponent.Encode(b) + UriComponent.Encode(c)
  {
    UriComponent.EncodeAppend(a + b, c);
    UriComponent.EncodeAppend(a, b);
  }

  lemma EncodeWord()
    ensures UriComponent.Encode("Order") == "Order"
  {
    var word := "Order";
    forall i | 0 <= i < |word| ensures UriComponent.Unescaped(word[i]) {
      assert UriComponent.IsAsciiAlpha(word[i]);
    }
    UriComponent.EncodeUnescaped(word);
  }

  lemma EncodePlainId(orderId: string)
    requires forall i :: 0 <= i < |orderId| ==>
               UriComponent.IsAsciiAlpha(orderId[i]) || IsDigit(orderId[i]) || orderId[i] == '-'
    ensures UriComponent.Encode(orderId) == orderId
  {
    forall i | 0 <= i < |orderId| ensures UriComponent.Unescaped(orderId[i]) {
      assert orderId[i] == '-' ==> orderId[i] in "-_.!~*'()";
    }
    UriComponent.EncodeUnescaped(orderId);
  }

  lemma EncodeSpace()
    ensures UriComponent.Encode(" ") == "%20"
  {
    assert UriComponent.Utf8(' ') == [0x20];
  }

  /**
   * The button's whole flow: the order the server creates from the posted body is linked
   * with its generated id as `tr` and the button's price as `am`.
   */
  lemma BookingLink(store: Orders.Store, eventId: string, price: int, userEmail: string, millis: nat, draw: nat, createdAt: int)
    requires draw < 1000
    ensures var (_, resp) := Orders.Create(store, OrderRequest(eventId, price, userEmail), millis, draw, createdAt);
            var order := resp.body.order;
            var ps := ParseLink(PaymentLink(order.id, order.amount));
            && ps.Some? && |ps.value| == 6 && ps.value[2] == ("tr", Orders.OrderId(millis, draw))
            && ParseFixed2(ps.value[3].1) == Some(price)
            && |ps.value[5].1| >= 7 && UriComponent.Decode(ps.value[5].1[7..]) == Some("Order " + Orders.OrderId(millis, draw))
  {
    var id := Orders.OrderId(millis, draw);
    Orders.OrderIdAlphabet(millis, draw);
    assert '&' !in id by {
      forall i | 0 <= i < |id| ensures id[i] != '&' {
        assert IsDigit(id[i]) || id[i] in "ORD-";
      }
    }
    AmountReadsBack(id, price);
    LinkReadsBack(id, price);
  }
}

=== FILE: decimal.dfy ===
/**
 * Decimal rendering of the integers the site prints: ids built from clock readings,
 * and money held as integer paise (1/100 rupee). JavaScript's number-to-string and
 * `toFixed(2)` agree with these exact renderings for amounts below 2^46 rupees.
 */
module Decimal {
  import opened Base
  import Text

  /** The rupee sign that prefixes amounts on tickets, cards and bookings. */
  const Rupee: char := '\U{20B9}'

  predicate IsDigit(c: char)
  {
    '0' <= c <= '9'
  }

  predicate AllDigits(s: string)
  {
    forall i :: 0 <= i < |s| ==> IsDigit(s[i])
  }

  function DigitChar(d: nat): (c: char)
    requires d < 10
    ensures IsDigit(c) && c as int - '0' as int == d
  {
    ('0' as int + d) as char
  }

  function DigitValue(c: char): (d: nat)
    requires IsDigit(c)
    ensures d < 10 && DigitChar(d) == c
  {
    c as int - '0' as int
  }

  /** Base-ten rendering of a natural number, without leading zeros. */
  function NatToString(n: nat): (s: string)
    ensures |s| >= 1 && AllDigits(s)
    ensures s[0] == '0' <==> n == 0
    ensures n == 0 ==> s == "0"
    decreases n
  {
    if n < 10 then [DigitChar(n)] else NatToString(n / 10) + [DigitChar(n % 10)]
  }

  /** The value of a string of decimal digits (most significant first). */
  function DigitsValue(s: string): nat
    requires AllDigits(s)
    decreases |s|
  {
    if |s| == 0 then 0 else DigitsValue(s[..|s| - 1]) * 10 + DigitValue(s[|s| - 1])
  }

  /** Reads a non-empty string of decimal digits; anything else is rejected. */
  function ParseNat(s: string): Option<nat>
  {
    if |s| > 0 && AllDigits(s) then Some(DigitsValue(s)) else None
  }

  /** Rendering a natural number and reading it back gives the number. */
  lemma {:induction false} ParseNatRoundTrip(n: nat)
    ensures ParseNat(NatToString(n)) == Some(n)
    decreases n
  {
    if n >= 10 {
      ParseNatRoundTrip(n / 10);
      var s := NatToString(n);
      assert s[..|s| - 1] == NatToString(n / 10);
      assert DigitValue(s[|s| - 1]) == n % 10;
      assert DigitsValue(s) == DigitsValue(NatToString(n / 10)) * 10 + n % 10;
    } else {
      assert DigitsValue(NatToString(n)) == DigitsValue([]) * 10 + n;
    }
  }

  /** Distinct numbers render differently. */
  lemma NatToStringInjective(a: nat, b: nat)
    ensures NatToString(a) == NatToString(b) ==> a == b
  {
    ParseNatRoundTrip(a);
    ParseNatRoundTrip(b);
  }

  function Abs(x: int): nat
  {
    if x < 0 then -x else x
  }

  function Sign(x: int): string
  {
    if x < 0 then "-" else ""
  }

  /** Two zero-padded digits for a value below 100. */
  function TwoDigits(n: nat): (s: string)
    requires n < 100
    ensures |s| == 2 && AllDigits(s)
  {
    [DigitChar(n / 10), DigitChar(n % 10)]
  }

  /** `Number.prototype.toFixed(2)` applied to `paise / 100`: sign, whole rupees, a point and exactly two digits. */
  function ToFixed2(paise: int): (s: string)
    ensures |s| >= 4 && s[|s| - 3] == '.' && IsDigit(s[|s| - 2]) && IsDigit(s[|s| - 1])
    ensures s[0] == '-' <==> paise < 0
    ensures var whole := if paise < 0 then s[1..|s| - 3] else s[..|s| - 3];
            |whole| >= 1 && AllDigits(whole) && (whole[0] == '0' ==> whole == "0")
  {
    var m := Abs(paise);
    assert IsDigit(NatToString(m / 100)[0]);
    Sign(paise) + NatToString(m / 100) + "." + TwoDigits(m % 100)
  }

  /** Reads `[-]digits.dd` back into paise. */
  function ParseFixed2(s: string): Option<int>
  {
    if |s| >= 4 && s[|s| - 3] == '.' && IsDigit(s[|s| - 2]) && IsDigit(s[|s| - 1]) then
      var negative := s[0] == '-';
      var whole := if negative then s[1..|s| - 3] else s[..|s| - 3];
      match ParseNat(whole)
      case None => None
      case Some(w) =>
        var v := w * 100 + DigitValue(s[|s| - 2]) * 10 + DigitValue(s[|s| - 1]);
        Some(if negative then -v else v)
    else None
  }

  /** `toFixed(2)` output reads back to the same amount. */
  lemma ToFixed2RoundTrip(paise: int)
    ensures ParseFixed2(ToFixed2(paise)) == Some(paise)
  {
    var m := Abs(paise);
    var w := NatToString(m / 100);
    var s := ToFixed2(paise);
    ParseNatRoundTrip(m / 100);
    assert s == Sign(paise) + w + "." + TwoDigits(m % 100);
    if paise < 0 {
      assert s[0] == '-';
      assert s[1..|s| - 3] == w;
    } else {
      assert s[0] == w[0];
      assert s[..|s| - 3] == w;
    }
  }

  /** JavaScript's shortest rendering of `paise / 100` as a number: no trailing zeros and no point for whole rupees. */
  function JsNumberString(paise: int): (s: string)
    ensures |s| >= 1 && (s[0] == '-' <==> paise < 0)
    ensures '.' in s <==> Abs(paise) % 100 != 0
    ensures var frac := Abs(paise) % 100;
            var pad := if frac == 0 then ".00" else if frac % 10 == 0 then "0" else "";
            s + pad == ToFixed2(paise)
    ensures var u := if paise < 0 then s[1..] else s;
            |u| >= 1 && IsDigit(u[0]) && (u[0] == '0' ==> |u| == 1 || u[1] == '.')
  {
    UnsignedShape(Abs(paise));
    Sign(paise) + UnsignedJsNumber(Abs(paise))
  }

  /** The unsigned text: digits without a leading zero, a point only for a fraction, and `toFixed(2)` once padded. */
  lemma UnsignedShape(m: nat)
    ensures var u := UnsignedJsNumber(m);
            && |u| >= 1 && IsDigit(u[0]) && '-' !in u
            && ('.' in u <==> m % 100 != 0)
            && (u[0] == '0' ==> |u| == 1 || u[1] == '.')
            && u + (if m % 100 == 0 then ".00" else if m % 100 % 10 == 0 then "0" else "")
               == NatToString(m / 100) + "." + TwoDigits(m % 100)
  {
    var w := NatToString(m / 100);
    NoPointInDigits(w);
    assert IsDigit(w[0]);
    var frac := m % 100;
    if frac == 0 {
      assert UnsignedJsNumber(m) == w;
    } else if frac % 10 == 0 {
      assert TwoDigits(frac) == [DigitChar(frac / 10), '0'];
      assert UnsignedJsNumber(m) == w + "." + [DigitChar(frac / 10)];
    } else {
      assert UnsignedJsNumber(m) == w + "." + TwoDigits(frac);
    }
  }

  function FractionText(frac: nat): string
    requires frac < 100
  {
    if frac == 0 then "" else if frac % 10 == 0 then "." + [DigitChar(frac / 10)] else "." + TwoDigits(frac)
  }

  function UnsignedJsNumber(m: nat): string
  {
    NatToString(m / 100) + FractionText(m % 100)
  }


  /** Reads JavaScript's rendering of an amount with at most two decimals, `[-]digits[.d[d]]`, back into paise. */
  function ParseJsNumber(s: string): Option<int>
  {
    if |s| > 0 && s[0] == '-' then
      match ParseUnsigned(s[1..])
      case Some(v) => Some(-(v as int))
      case None => None
    else
      match ParseUnsigned(s)
      case Some(v) => Some(v as int)
      case None => None
  }

  /** Reads `digits[.d[d]]` into paise. */
  function ParseUnsigned(s: string): Option<nat>
  {
    var (whole, frac) := Text.SplitFirst(s, '.');
    match ParseNat(whole)
    case None => None
    case Some(w) =>
      if '.' !in s then Some(w * 100)
      else if |frac| == 1 && IsDigit(frac[0]) then Some(w * 100 + DigitValue(frac[0]) * 10)
      else if |frac| == 2 && IsDigit(frac[0]) && IsDigit(frac[1]) then Some(w * 100 + DigitValue(frac[0]) * 10 + DigitValue(frac[1]))
      else None
  }

  lemma NoPointInDigits(s: string)
    requires AllDigits(s)
    ensures '.' !in s && '-' !in s
  {
  }

  lemma UnsignedRoundTrip(m: nat)
    ensures ParseUnsigned(UnsignedJsNumber(m)) == Some(m)
  {
    if m % 100 == 0 {
      WholeRoundTrip(m);
    } else if m % 100 % 10 == 0 {
      TenthsRoundTrip(m);
    } else {
      HundredthsRoundTrip(m);
    }
  }

  lemma WholeRoundTrip(m: nat)
    requires m % 100 == 0
    ensures ParseUnsigned(UnsignedJsNumber(m)) == Some(m)
  {
    var w := NatToString(m / 100);
    ParseNatRoundTrip(m / 100);
    assert UnsignedJsNumber(m) == w;
    ParseWhole(w);
  }

  lemma TenthsRoundTrip(m: nat)
    requires m % 100 != 0 && m % 100 % 10 == 0
    ensures ParseUnsigned(UnsignedJsNumber(m)) == Some(m)
  {
    var q, hi := m / 100, m % 100 / 10;
    var w, d := NatToString(q), [DigitChar(hi)];
    ParseNatRoundTrip(q);
    assert UnsignedJsNumber(m) == w + ['.'] + d;
    ParseFraction(w, d);
    assert DigitValue(d[0]) == hi;
    assert m == q * 100 + hi * 10;
  }

  lemma HundredthsRoundTrip(m: nat)
    requires m % 100 % 10 != 0
    ensures ParseUnsigned(UnsignedJsNumber(m)) == Some(m)
  {
    var q, hi, lo := m / 100, m % 100 / 10, m % 100 % 10;
    var w, d := NatToString(q), TwoDigits(m % 100);
    ParseNatRoundTrip(q);
    assert d == [DigitChar(hi), DigitChar(lo)];
    assert UnsignedJsNumber(m) == w + ['.'] + d;
    ParseFraction(w, d);
    assert DigitValue(d[0]) == hi && DigitValue(d[1]) == lo;
    assert m == q * 100 + hi * 10 + lo;
  }

  lemma ParseWhole(w: string)
    requires AllDigits(w) && ParseNat(w).Some?
    ensures ParseUnsigned(w) == Some(ParseNat(w).value * 100)
  {
    NoPointInDigits(w);
  }

  lemma ParseFraction(w: string, digits: string)
    requires AllDigits(w) && ParseNat(w).Some?
    requires (|digits| == 1 || |digits| == 2) && AllDigits(digits)
    ensures ParseUnsigned(w + ['.'] + digits)
         == Some(ParseNat(w).value * 100 + DigitValue(digits[0]) * 10 + (if |digits| == 2 then DigitValue(digits[1]) else 0))
  {
    var s := w + ['.'] + digits;
    NoPointInDigits(w);
    Text.SplitFirstAt(w, '.', digits);
    assert s[|w|] == '.';
  }

  /** The shortest rendering of an amount reads back to the same amount. */
  lemma {:induction false} JsNumberRoundTrip(paise: int)
    ensures ParseJsNumber(JsNumberString(paise)) == Some(paise)
  {
    var m := Abs(paise);
    var u := UnsignedJsNumber(m);
    UnsignedRoundTrip(m);
    assert u[0] != '-' by { assert IsDigit(NatToString(m / 100)[0]); }
    if paise < 0 {
      assert JsNumberString(paise) == "-" + u;
      ParseNegative(u, m);
    } else {
      assert JsNumberString(paise) == u;
      ParseNonNegative(u, m);
    }
  }

  lemma ParseNegative(u: string, m: nat)
    requires ParseUnsigned(u) == Some(m)
    ensures ParseJsNumber("-" + u) == Some(-(m as int))
  {
    assert ("-" + u)[1..] == u;
  }

  lemma ParseNonNegative(u: string, m: nat)
    requires ParseUnsigned(u) == Some(m)
    requires |u| >= 1 && u[0] != '-'
    ensures ParseJsNumber(u) == Some(m)
  {
  }
}

=== FILE: event_card.dfy ===
/**
 * What an event card shows for an event (`src/components/EventCard.tsx`): the status badge,
 * the featured badge, and the action button's label, disabled flag and hover overlay.
 */
module EventCard {
  import opened Base
  import opened EventData
  import Text
  import EventsPage

  /** The badge text: `upcoming` reads "Coming Soon", `selling` "On Sale", anything else "Sold Out". */
  function BadgeLabel(s: EventStatus): (r: string)
    ensures r == "Coming Soon" <==> s == Upcoming
    ensures r == "On Sale" <==> s == Selling
    ensures r == "Sold Out" <==> s == SoldOut
  {
    var name := StatusName(s);
    if name == "upcoming" then "Coming Soon" else if name == "selling" then "On Sale" else "Sold Out"
  }

  /** The button text: "Sold Out", else "Notify Me" for upcoming events, else "Book Now". */
  function ButtonLabel(s: EventStatus): (r: string)
    ensures r == "Sold Out" <==> s == SoldOut
    ensures r == "Notify Me" <==> s == Upcoming
    ensures r == "Book Now" <==> s == Selling
  {
    var name := StatusName(s);
    if name == "sold-out" then "Sold Out" else if name == "upcoming" then "Notify Me" else "Book Now"
  }

  /** The button's `disabled` flag. */
  function ButtonDisabled(s: EventStatus): (r: bool)
    ensures r <==> s == SoldOut
  {
    StatusName(s) == "sold-out"
  }

  /** The hover overlay is rendered unless the status text includes `sold-out`. */
  function ShowsHoverOverlay(s: EventStatus): (r: bool)
    ensures r <==> s != SoldOut
  {
    SoldOutTextIffSoldOut(s);
    !Text.Contains(StatusName(s), "sold-out")
  }

  /** What a card shows. */
  datatype Card = Card(badge: string, featuredBadge: bool, button: string, disabled: bool, hoverOverlay: bool)

  /** The card for one event. */
  function Render(e: Event): (c: Card)
    ensures c.featuredBadge <==> e.featured == Some(true)
    ensures c.disabled <==> e.status == SoldOut
    ensures c.hoverOverlay <==> !c.disabled
    ensures c.disabled ==> c.button == c.badge == "Sold Out"
    ensures !c.disabled ==> c.button != c.badge
    ensures c.badge == BadgeLabel(e.status) && c.button == ButtonLabel(e.status)
  {
    SoldOutTextIffSoldOut(e.status);
    Card(BadgeLabel(e.status), IsFeatured(e), ButtonLabel(e.status), ButtonDisabled(e.status), ShowsHoverOverlay(e.status))
  }

  /** The status a badge label stands for: the badge is a one-to-one map on the three statuses. */
  function StatusOfBadge(badge: string): Option<EventStatus>
  {
    if badge == "Coming Soon" then Some(Upcoming)
    else if badge == "On Sale" then Some(Selling)
    else if badge == "Sold Out" then Some(SoldOut)
    else None
  }

  lemma BadgeLabelRoundTrip(s: EventStatus)
    ensures StatusOfBadge(BadgeLabel(s)) == Some(s)
  {
  }

  /** For the three status values, the text includes `sold-out` exactly when the status is `sold-out`. */
  lemma SoldOutTextIffSoldOut(s: EventStatus)
    ensures Text.Contains(StatusName(s), "sold-out") <==> s == SoldOut
  {
    if s == SoldOut {
      assert StatusName(s)[..8] == "sold-out";
    } else if s == Upcoming {
      assert StatusName(s)[0] != "sold-out"[0];
      assert StatusName(s)[..8] != "sold-out";
      assert |StatusName(s)[1..]| < 8;
    } else {
      assert |StatusName(s)| < 8;
    }
  }

  /** The disabled button is exactly the sold-out one, and the labels follow the status. */
  lemma ButtonFollowsStatus(s: EventStatus)
    ensures ButtonDisabled(s) <==> s == SoldOut
    ensures ButtonLabel(s) == (match s case SoldOut => "Sold Out" case Upcoming => "Notify Me" case Selling => "Book Now")
  {
  }

  /** The card's badge says the same as the events page's status filter option for that status. */
  lemma BadgeMatchesFilterOption(s: EventStatus)
    ensures BadgeLabel(s) == EventsPage.StatusOptionLabel(StatusName(s))
  {
  }

  /** Among the sample events only the first and third carry the featured badge, and only the last is disabled. */
  lemma SampleCards()
    ensures forall i :: 0 <= i < |SampleEvents| ==> (Render(SampleEvents[i]).featuredBadge <==> i == 0 || i == 2)
    ensures forall i :: 0 <= i < |SampleEvents| ==> (Render(SampleEvents[i]).disabled <==> i == 5)
  {
  }
}

=== FILE: event_data.dfy ===
/**
 * The event record shown by the catalogue pages (`src/components/EventCard.tsx`) and the
 * sample catalogue with its genre and city option lists (`src/data/events.ts`).
 */
module EventData {
  import opened Base
  import opened Decimal

  /** `'upcoming' | 'selling' | 'sold-out'`. */
  datatype EventStatus = Upcoming | Selling | SoldOut

  /** The status as the string stored on the record. */
  function StatusName(s: EventStatus): string
  {
    match s
    case Upcoming => "upcoming"
    case Selling => "selling"
    case SoldOut => "sold-out"
  }

  /** The status a string names, if any. */
  function ParseStatus(name: string): (r: Option<EventStatus>)
    ensures r.Some? <==> name in {"upcoming", "selling", "sold-out"}
  {
    if name == "upcoming" then Some(Upcoming)
    else if name == "selling" then Some(Selling)
    else if name == "sold-out" then Some(SoldOut)
    else None
  }

  /** Status names are distinct and read back as the status they name. */
  lemma StatusNameRoundTrip(s: EventStatus)
    ensures ParseStatus(StatusName(s)) == Some(s)
  {
  }

  /**
   * A catalogue event. `price` is display text; `featured` is the optional flag, missing on
   * most records. The image URL is not modelled.
   */
  datatype Event = Event(
    id: string,
    title: string,
    date: string,
    time: string,
    venue: string,
    city: string,
    genre: string,
    capacity: nat,
    price: string,
    featured: Option<bool>,
    status: EventStatus)

  /** JavaScript truthiness of the optional `featured` flag: only `true` counts. */
  predicate IsFeatured(e: Event)
  {
    e.featured == Some(true)
  }

  const NeonNights := Event("1", "Neon Nights: Electronic Odyssey", "March 15, 2025", "9:00 PM",
    "Phoenix MarketCity", "Mumbai", "Electronic", 5000, [Rupee] + "2,500 onwards", Some(true), Selling)
  const BassDrop := Event("2", "Bass Drop Festival 2025", "March 28, 2025", "7:00 PM",
    "DLF CyberHub", "Gurugram", "Bass", 3500, [Rupee] + "1,800 onwards", None, Selling)
  const TechnoTransformation := Event("3", "Techno Transformation", "April 12, 2025", "10:00 PM",
    "Bangalore Palace Grounds", "Bangalore", "Techno", 7500, [Rupee] + "3,200 onwards", Some(true), Upcoming)
  const ProgressivePulse := Event("4", "Progressive Pulse", "April 25, 2025", "8:30 PM",
    "Hyderabad International Convention Centre", "Hyderabad", "Progressive", 4200, [Rupee] + "2,100 onwards", None, Selling)
  const SunsetSoundscapes := Event("5", "Sunset Soundscapes", "May 8, 2025", "6:00 PM",
    "Puducherry Beach Resort", "Puducherry", "Ambient", 1500, [Rupee] + "4,500 onwards", None, Upcoming)
  const UndergroundCollective := Event("6", "Underground Collective", "May 20, 2025", "11:00 PM",
    "Kolkata Creative Hub", "Kolkata", "Underground", 2000, [Rupee] + "1,200 onwards", None, SoldOut)

  /** The catalogue, in listing order. */
  const SampleEvents: seq<Event> :=
    [NeonNights, BassDrop, TechnoTransformation, ProgressivePulse, SunsetSoundscapes, UndergroundCollective]

  /** The genre filter's options; the first is the wildcard. */
  const EventGenres: seq<string> :=
    ["All", "Electronic", "Techno", "Bass", "Progressive", "Ambient", "Underground"]

  /** The city filter's options; the first is the wildcard. */
  const EventCities: seq<string> :=
    ["All Cities", "Mumbai", "Delhi", "Bangalore", "Hyderabad", "Kolkata", "Chennai", "Pune", "Gurugram", "Puducherry"]

  /** Every sample event's genre and city is offered by the filters. */
  lemma SampleOptionsCover()
    ensures forall i :: 0 <= i < |SampleEvents| ==> SampleEvents[i].genre in EventGenres && SampleEvents[i].city in EventCities
  {
  }
}

=== FILE: events_api.dfy ===
/**
 * The server's in-memory event list (`server/events.ts`): POST appends the request body with
 * a generated id, GET returns the whole list. Event records are JSON objects with flat values;
 * the clock reading that makes up the id is a parameter.
 */
module EventsApi {
  import opened Decimal

  datatype Json = JNull | JBool(b: bool) | JNum(n: int) | JStr(s: string)

  /** A JSON object: field name to value. */
  type Record = map<string, Json>

  /** `EV-<milliseconds>`. */
  function GeneratedId(millis: nat): (id: string)
    ensures |id| > 3 && id[..3] == "EV-"
  {
    "EV-" + NatToString(millis)
  }

  /**
   * `{ id: generated, ...body }`: the body's fields are copied after the generated id, so a
   * body that carries its own `id` replaces the generated one.
   */
  function WithId(body: Record, millis: nat): (ev: Record)
    ensures ev.Keys == body.Keys + {"id"}
    ensures ev["id"] == if "id" in body then body["id"] else JStr(GeneratedId(millis))
    ensures forall k :: k in body ==> ev[k] == body[k]
  {
    map["id" := JStr(GeneratedId(millis))] + body
  }

  /** `POST /api/events`: appends one record and answers with it; earlier records keep their values and order. */
  function Post(events: seq<Record>, body: Record, millis: nat): (r: (seq<Record>, Record))
    ensures |r.0| == |events| + 1
    ensures r.0[..|events|] == events
    ensures r.0[|events|] == r.1 == WithId(body, millis)
  {
    var ev := WithId(body, millis);
    (events + [ev], ev)
  }

  /** `GET /api/events`: the whole list, in insertion order. */
  function Get(events: seq<Record>): (r: seq<Record>)
    ensures |r| == |events| && forall i :: 0 <= i < |r| ==> r[i] == events[i]
  {
    events
  }

  /** Posting the bodies one after another, each with its own clock reading. */
  function PostAll(events: seq<Record>, bodies: seq<Record>, clock: seq<nat>): (r: seq<Record>)
    requires |clock| == |bodies|
    ensures |r| == |events| + |bodies|
    ensures r[..|events|] == events
    ensures forall i :: 0 <= i < |bodies| ==> r[|events| + i] == WithId(bodies[i], clock[i])
    decreases |bodies|
  {
    if |bodies| == 0 then events
    else PostAll(Post(events, bodies[0], clock[0]).0, bodies[1..], clock[1..])
  }

  /** A GET after a series of POSTs lists the earlier records and then the new ones, in the order they were posted. */
  lemma GetAfterPosts(events: seq<Record>, bodies: seq<Record>, clock: seq<nat>)
    requires |clock| == |bodies|
    ensures var listed := Get(PostAll(events, bodies, clock));
            && |listed| == |events| + |bodies|
            && (forall i :: 0 <= i < |events| ==> listed[i] == events[i])
            && (forall i :: 0 <= i < |bodies| ==> listed[|events| + i] == WithId(bodies[i], clock[i]))
  {
    var r := PostAll(events, bodies, clock);
    assert forall i :: 0 <= i < |events| ==> r[i] == r[..|events|][i];
  }

  /** Ids are not deduplicated: two bodies naming the same `id` are both stored under it. */
  lemma DuplicateIdsStored(events: seq<Record>, body1: Record, body2: Record, m1: nat, m2: nat, id: Json)
    requires "id" in body1 && "id" in body2 && body1["id"] == id && body2["id"] == id
    ensures var s := Post(Post(events, body1, m1).0, body2, m2).0;
            |s| == |events| + 2 && s[|events|]["id"] == id && s[|events| + 1]["id"] == id
  {
  }

  /** Without an `id` of its own, a record's id is `EV-` and the clock reading, which two posts in the same millisecond share. */
  lemma GeneratedIdsCollide(events: seq<Record>, body1: Record, body2: Record, millis: nat)
    requires "id" !in body1 && "id" !in body2
    ensures var s := Post(Post(events, body1, millis).0, body2, millis).0;
            s[|events|]["id"] == s[|events| + 1]["id"] == JStr(GeneratedId(millis))
  {
  }
}

=== FILE: events_page.dfy ===
/**
 * The events page's filters (`src/components/pages/EventsPage.tsx`): a case-insensitive text
 * search on title, venue and city, three drop-downs whose first option is a wildcard, the
 * result count, the empty-result panel with its reset button, and the "load more" rule.
 */
module EventsPage {
  import opened Base
  import opened EventData
  import Text

  const AnyGenre := "All"
  const AnyCity := "All Cities"
  const AnyStatus := "All Status"

  /** The four pieces of filter state. */
  datatype Filters = Filters(search: string, genre: string, city: string, status: string)

  /** The state the page starts in, and the one "Clear Filters" restores. */
  const Initial := Filters("", AnyGenre, AnyCity, AnyStatus)

  /** "Clear Filters": every field back to its initial value, whatever it was. */
  function ClearFilters(f: Filters): (r: Filters)
    ensures r.search == "" && r.genre == AnyGenre && r.city == AnyCity && r.status == AnyStatus
  {
    Initial
  }

  /** `field.toLowerCase().includes(query.toLowerCase())`, ASCII case folding only. */
  predicate FieldMatches(field: string, query: string)
  {
    Text.Contains(Text.Lower(field), Text.Lower(query))
  }

  predicate MatchesSearch(e: Event, query: string)
  {
    FieldMatches(e.title, query) || FieldMatches(e.venue, query) || FieldMatches(e.city, query)
  }

  predicate MatchesGenre(e: Event, genre: string)
  {
    genre == AnyGenre || e.genre == genre
  }

  predicate MatchesCity(e: Event, city: string)
  {
    city == AnyCity || e.city == city
  }

  predicate MatchesStatus(e: Event, status: string)
  {
    status == AnyStatus || StatusName(e.status) == status
  }

  /** The conjunction the page filters by. */
  function Keeps(f: Filters, e: Event): (r: bool)
    ensures r ==> MatchesSearch(e, f.search)
    ensures r && f.genre != AnyGenre ==> e.genre == f.genre
    ensures r && f.city != AnyCity ==> e.city == f.city
    ensures r && f.status != AnyStatus ==> StatusName(e.status) == f.status
    ensures f.genre == AnyGenre && f.city == AnyCity && f.status == AnyStatus ==> (r <==> MatchesSearch(e, f.search))
    ensures f == Initial ==> r
    ensures (&& MatchesSearch(e, f.search)
             && (f.genre == AnyGenre || e.genre == f.genre)
             && (f.city == AnyCity || e.city == f.city)
             && (f.status == AnyStatus || StatusName(e.status) == f.status)) ==> r
  {
    EmptySearchMatchesAll(e);
    MatchesSearch(e, f.search) && MatchesGenre(e, f.genre) && MatchesCity(e, f.city) && MatchesStatus(e, f.status)
  }

  /**
   * `filteredEvents`: an order-preserving selection of the catalogue holding exactly the
   * events every filter accepts.
   */
  function FilteredEvents(events: seq<Event>, f: Filters): (r: seq<Event>)
    ensures IsSubsequence(r, events)
    ensures forall i :: 0 <= i < |r| ==> r[i] in events && Keeps(f, r[i])
    ensures forall i :: 0 <= i < |events| ==> (events[i] in r <==> Keeps(f, events[i]))
    ensures forall x :: multiset(r)[x] == if Keeps(f, x) then multiset(events)[x] else 0
  {
    FilterMultiset(events, e => Keeps(f, e));
    Filter(events, e => Keeps(f, e))
  }

  /** The numbers in "Showing N of M events". */
  function ResultCount(events: seq<Event>, f: Filters): (r: (nat, nat))
    ensures r.0 <= r.1 == |events|
    ensures r.0 == |events| <==> FilteredEvents(events, f) == events
  {
    var shown := FilteredEvents(events, f);
    SubsequenceBounds(shown, events);
    if |shown| == |events| then
      SubsequenceOfSameLength(shown, events);
      (|shown|, |events|)
    else (|shown|, |events|)
  }

  /** A subsequence as long as the whole is the whole. */
  lemma {:induction false} SubsequenceOfSameLength<T>(a: seq<T>, b: seq<T>)
    requires IsSubsequence(a, b) && |a| == |b|
    ensures a == b
    decreases |b|
  {
    if |b| != 0 {
      if a[0] == b[0] && IsSubsequence(a[1..], b[1..]) {
        SubsequenceOfSameLength(a[1..], b[1..]);
        assert a == [a[0]] + a[1..] && b == [b[0]] + b[1..];
      } else {
        SubsequenceBounds(a, b[1..]);
      }
    }
  }

  /** The "No Events Found" panel replaces the grid exactly when nothing matches. */
  function ShowsEmptyPanel(events: seq<Event>, f: Filters): (r: bool)
    ensures r <==> forall i :: 0 <= i < |events| ==> !Keeps(f, events[i])
  {
    !(|FilteredEvents(events, f)| > 0)
  }

  /** `filteredEvents.length > 0 && filteredEvents.length >= 6`. */
  function ShowsLoadMore(events: seq<Event>, f: Filters): (b: bool)
    ensures b <==> |FilteredEvents(events, f)| >= 6
    ensures b ==> !ShowsEmptyPanel(events, f)
  {
    var n := |FilteredEvents(events, f)|;
    n > 0 && n >= 6
  }

  /** The status drop-down's values, wildcard first. */
  const StatusOptions: seq<string> := [AnyStatus, "upcoming", "selling", "sold-out"]

  /** The label each status option is shown with. */
  function StatusOptionLabel(option: string): (r: string)
    ensures option == AnyStatus ==> r == AnyStatus
    ensures option != AnyStatus ==> r in ["Coming Soon", "On Sale", "Sold Out"]
    ensures option in StatusOptions[1..] ==> r != option
    ensures option !in StatusOptions[..3] ==> r == "Sold Out"
  {
    assert StatusOptions[..3] == [AnyStatus, "upcoming", "selling"];
    if option == AnyStatus then option
    else if option == "upcoming" then "Coming Soon"
    else if option == "selling" then "On Sale"
    else "Sold Out"
  }

  /** Every status value is offered, and the options carry distinct labels. */
  lemma StatusOptionsComplete(s: EventStatus)
    ensures StatusName(s) in StatusOptions[1..]
    ensures forall i, j :: 0 <= i < j < |StatusOptions| ==> StatusOptionLabel(StatusOptions[i]) != StatusOptionLabel(StatusOptions[j])
  {
  }

  /** The initial selections are the first entries of their option lists. */
  lemma DefaultsAreFirstOptions()
    ensures Initial.genre == EventGenres[0] && Initial.city == EventCities[0] && Initial.status == StatusOptions[0]
  {
  }

  /** The search matches exactly when the lower-cased query occurs somewhere in a lower-cased title, venue or city. */
  lemma SearchIsSubstring(e: Event, query: string)
    ensures MatchesSearch(e, query) <==>
              (exists i: nat :: Text.OccursAt(Text.Lower(e.title), Text.Lower(query), i))
              || (exists i: nat :: Text.OccursAt(Text.Lower(e.venue), Text.Lower(query), i))
              || (exists i: nat :: Text.OccursAt(Text.Lower(e.city), Text.Lower(query), i))
  {
    Text.ContainsIffOccurs(Text.Lower(e.title), Text.Lower(query));
    Text.ContainsIffOccurs(Text.Lower(e.venue), Text.Lower(query));
    Text.ContainsIffOccurs(Text.Lower(e.city), Text.Lower(query));
  }

  /** The search ignores ASCII case on both sides: a query and its lower-cased form match the same events. */
  lemma SearchIgnoresCase(e: Event, query: string)
    ensures MatchesSearch(e, query) <==> MatchesSearch(e, Text.Lower(query))
  {
    Text.LowerIdempotent(query);
  }

  /** The empty query matches every event. */
  lemma EmptySearchMatchesAll(e: Event)
    ensures MatchesSearch(e, "")
  {
    Text.EmptyIsContained(Text.Lower(e.title));
  }

  /** After "Clear Filters" the whole catalogue is listed again, in its order. */
  lemma ClearFiltersShowsAll(events: seq<Event>, f: Filters)
    ensures FilteredEvents(events, ClearFilters(f)) == events
  {
    forall e | e in events ensures Keeps(Initial, e) {
      EmptySearchMatchesAll(e);
    }
    FilterAll(events, e => Keeps(Initial, e));
  }

  /** `g` narrows `f`: the same search, and each drop-down either as in `f` or moved off a wildcard of `f`. */
  predicate Narrows(g: Filters, f: Filters)
  {
    && g.search == f.search
    && (g.genre == f.genre || f.genre == AnyGenre)
    && (g.city == f.city || f.city == AnyCity)
    && (g.status == f.status || f.status == AnyStatus)
  }

  /** Choosing a specific genre, city or status where a wildcard was selected only removes events. */
  lemma NarrowingShrinks(events: seq<Event>, f: Filters, g: Filters)
    requires Narrows(g, f)
    ensures IsSubsequence(FilteredEvents(events, g), FilteredEvents(events, f))
    ensures |FilteredEvents(events, g)| <= |FilteredEvents(events, f)|
  {
    FilterMonotone(events, e => Keeps(g, e), e => Keeps(f, e));
    SubsequenceBounds(FilteredEvents(events, g), FilteredEvents(events, f));
  }

  /** Filtering by status `sold-out` lists only the Kolkata event. */
  lemma SoldOutFixture()
    ensures FilteredEvents(SampleEvents, Initial.(status := "sold-out")) == [UndergroundCollective]
  {
    var f := Initial.(status := "sold-out");
    assert !Keeps(f, NeonNights) && !Keeps(f, BassDrop) && !Keeps(f, TechnoTransformation);
    assert !Keeps(f, ProgressivePulse) && !Keeps(f, SunsetSoundscapes);
    assert Keeps(f, UndergroundCollective) by {
      EmptySearchMatchesAll(UndergroundCollective);
    }
    var p := e => Keeps(f, e);
    var s := SampleEvents;
    assert Filter(s[6..], p) == [];
    assert Filter(s[5..], p) == [UndergroundCollective] by { assert s[5..][1..] == s[6..]; }
    assert Filter(s[4..], p) == [UndergroundCollective] by { assert s[4..][1..] == s[5..]; }
    assert Filter(s[3..], p) == [UndergroundCollective] by { assert s[3..][1..] == s[4..]; }
    assert Filter(s[2..], p) == [UndergroundCollective] by { assert s[2..][1..] == s[3..]; }
    assert Filter(s[1..], p) == [UndergroundCollective] by { assert s[1..][1..] == s[2..]; }
  }

  /** With the initial filters all six sample events are shown, so "load more" appears. */
  lemma InitialFixture()
    ensures ResultCount(SampleEvents, Initial) == (6, 6)
    ensures ShowsLoadMore(SampleEvents, Initial)
  {
    ClearFiltersShowsAll(SampleEvents, Initial);
  }
}

=== FILE: fulfilment.dfy ===
/**
 * The confirmation route with the ticket step of `server/ticket.ts` plugged in: the order is
 * marked paid first, the ticket is issued from that updated order, and the ticket step's
 * outcome decides between the 200 and the 500 response.
 */
module Fulfilment {
  import opened Base
  import opened Orders
  import opened Ticket

  datatype Result = Result(store: Store, response: Response, effects: seq<Effect>)

  /** Confirmation followed by ticket issuing; an unknown id issues nothing. */
  function ConfirmAndIssue(store: Store, id: string, txnId: Option<string>, tmpDir: string, sendOk: bool, deleteOk: bool): (r: Result)
    ensures id !in store ==> r.effects == [] && r.store == store && r.response == Response(404, ErrorBody(NotFoundMessage))
    ensures id in store ==>
              var paid := MarkPaid(store[id], txnId);
              && r.store == store[id := paid]
              && r.response == (if sendOk && deleteOk then Response(200, ConfirmedBody(true, paid))
                                else Response(500, ErrorBody(TicketFailureMessage)))
              && |r.effects| == (if sendOk then 3 else 2)
              && r.effects[0] == WriteFile(OutPath(tmpDir, store[id].id), Lines(paid))
              && r.effects[1] == SendMail(Envelope(paid, tmpDir))
              && (sendOk ==> r.effects[2] == DeleteFile(OutPath(tmpDir, store[id].id)))
  {
    if id !in store then
      var (s, resp) := Confirm(store, id, txnId, false);
      Result(s, resp, [])
    else
      var run := GenerateAndSend(MarkPaid(store[id], txnId), tmpDir, sendOk, deleteOk);
      var (s, resp) := Confirm(store, id, txnId, run.outcome == Resolved);
      Result(s, resp, run.effects)
  }

  /**
   * The ticket is issued from the order as just confirmed: it shows the new transaction id
   * (or `N/A`), it is mailed to the order's address, and it is written under the order's id
   * (the key it is stored under, in a well-formed store).
   */
  lemma TicketShowsConfirmedOrder(store: Store, id: string, txnId: Option<string>, tmpDir: string, sendOk: bool, deleteOk: bool)
    requires id in store
    ensures var r := ConfirmAndIssue(store, id, txnId, tmpDir, sendOk, deleteOk);
            && r.effects[0] == WriteFile(OutPath(tmpDir, store[id].id), Lines(r.store[id]))
            && ReadTicket(r.effects[0].lines) == Some(TicketText(store[id].id, store[id].eventId, store[id].amount, TxnText(txnId)))
            && r.effects[1].mail.to == store[id].email
  {
    var o := MarkPaid(store[id], txnId);
    var run := GenerateAndSend(o, tmpDir, sendOk, deleteOk);
    var r := ConfirmAndIssue(store, id, txnId, tmpDir, sendOk, deleteOk);
    assert r.store[id] == o;
    assert r.effects == run.effects;
    TicketReadsBack(o);
  }

  /**
   * A mail failure and a failed delete both answer 500, yet the order is paid with the new
   * transaction id all the same; only when both succeed is the answer 200 with that order.
   */
  lemma FailureLeavesOrderPaid(store: Store, id: string, txnId: Option<string>, tmpDir: string, sendOk: bool, deleteOk: bool)
    requires id in store
    ensures var r := ConfirmAndIssue(store, id, txnId, tmpDir, sendOk, deleteOk);
            && r.store[id].status == Paid && r.store[id].txnId == txnId
            && (r.response.status == 200 <==> sendOk && deleteOk)
            && (r.response.status != 200 ==> r.response == Response(500, ErrorBody(TicketFailureMessage)))
            && (r.response.status == 200 ==> r.response.body == ConfirmedBody(true, r.store[id]))
  {
  }

  /** The ticket file is deleted only after the mail was accepted: a failed send leaves it in place. */
  lemma DeleteOnlyAfterSend(store: Store, id: string, txnId: Option<string>, tmpDir: string, sendOk: bool, deleteOk: bool)
    requires id in store
    ensures var r := ConfirmAndIssue(store, id, txnId, tmpDir, sendOk, deleteOk);
            && (forall i :: 0 <= i < |r.effects| && r.effects[i].DeleteFile? ==> sendOk && r.effects[i - 1].SendMail?)
            && (!sendOk ==> forall i :: 0 <= i < |r.effects| ==> !r.effects[i].DeleteFile?)
  {
  }

  /**
   * The scenario of a booking: a 250-rupee order for `EV-1` is created pending, and a
   * confirmation with `TXN123` whose mail goes through answers 200 with the order paid.
   */
  lemma BookingScenario(store: Store, tmpDir: string, millis: nat, draw: nat, createdAt: int)
    requires draw < 1000
    ensures var (s1, created) := Create(store, CreateRequest("EV-1", 25000, "a@b.com"), millis, draw, createdAt);
            var id := OrderId(millis, draw);
            var r := ConfirmAndIssue(s1, id, Some("TXN123"), tmpDir, true, true);
            && created.body.order.status == Pending && created.body.order.amount == 25000
            && r.response.status == 200
            && r.store[id].status == Paid && r.store[id].txnId == Some("TXN123")
            && r.effects[1].mail.to == "a@b.com"
            && |r.effects| == 3
  {
  }
}

=== FILE: my_bookings.dfy ===
/**
 * The "My Bookings" panel (`src/components/MyBookings.tsx`): a toggle that shows or hides the
 * list, a fetch that runs when the panel opens or the user changes while it is open, and one row per booking with fallbacks for a
 * missing joined event or missing fields. The query itself is not modelled; its outcome is
 * a parameter.
 */
module MyBookings {
  import opened Base
  import opened Decimal

  const UnknownEvent := "Unknown Event"
  const NotAvailable := "N/A"
  const EmptyMessage := "No bookings yet."

  /** The joined `events` record; each field may come back null. `price` is in paise. */
  datatype JoinedEvent = JoinedEvent(title: Option<string>, date: Option<string>, venue: Option<string>, price: Option<int>)

  /** A booking row as the query returns it; `events` is the joined list, possibly null. */
  datatype Booking = Booking(id: string, eventId: string, txnId: string, createdAt: string, events: Option<seq<JoinedEvent>>)

  /** `b.events?.[0] ?? null`: the first joined event, if the list is present and non-empty. */
  function FirstEvent(b: Booking): (r: Option<JoinedEvent>)
    ensures r.Some? <==> b.events.Some? && |b.events.value| > 0
    ensures r.Some? ==> r.value == b.events.value[0]
  {
    match b.events
    case Some(evs) => if |evs| > 0 then Some(evs[0]) else None
    case None => None
  }

  /**
   * The values one row shows. The row prints them after the labels `Date: `, `Venue: `,
   * `Price: ` and `Txn ID: `; the labels are constant and not part of this record.
   */
  datatype Row = Row(title: string, date: string, venue: string, price: string, txn: string)

  /** `evt?.price != null ? '₹' + price : 'N/A'`: zero is a price like any other. */
  function PriceText(price: Option<int>): (t: string)
    ensures price.None? ==> t == NotAvailable
    ensures price.Some? ==> |t| >= 1 && t[0] == Rupee
  {
    match price
    case Some(p) => [Rupee] + JsNumberString(p)
    case None => NotAvailable
  }

  /** A shown price reads back as the booked price. */
  lemma PriceTextReadsBack(p: int)
    ensures PriceText(Some(p))[1..] == JsNumberString(p)
    ensures ParseJsNumber(PriceText(Some(p))[1..]) == Some(p)
  {
    JsNumberRoundTrip(p);
  }

  /** The row for one booking, falling back field by field. */
  function RenderRow(b: Booking): (r: Row)
    ensures FirstEvent(b).None? ==> r == Row(UnknownEvent, NotAvailable, NotAvailable, NotAvailable, b.txnId)
    ensures FirstEvent(b).Some? ==>
              var e := FirstEvent(b).value;
              && r.title == e.title.GetOr(UnknownEvent)
              && r.date == e.date.GetOr(NotAvailable)
              && r.venue == e.venue.GetOr(NotAvailable)
              && r.price == PriceText(e.price)
              && (e.price.None? <==> r.price == NotAvailable)
    ensures r.txn == b.txnId
  {
    var evt := FirstEvent(b);
    var title := match evt case Some(e) => e.title.GetOr(UnknownEvent) case None => UnknownEvent;
    var date := match evt case Some(e) => e.date.GetOr(NotAvailable) case None => NotAvailable;
    var venue := match evt case Some(e) => e.venue.GetOr(NotAvailable) case None => NotAvailable;
    var price := match evt case Some(e) => PriceText(e.price) case None => NotAvailable;
    Row(title, date, venue, price, b.txnId)
  }

  /** The component's state: the `userId` prop, whether the panel is open, and the bookings last fetched. */
  datatype View = View(userId: string, show: bool, bookings: seq<Booking>)

  /** The state the component mounts in for a user: closed, with nothing fetched. */
  function Mounted(userId: string): (v: View)
    ensures v.userId == userId && !v.show && v.bookings == []
  {
    View(userId, false, [])
  }

  /** The toggle button flips `show` and keeps the fetched bookings. */
  function Toggle(v: View): (r: View)
    ensures r.show == !v.show && r.bookings == v.bookings && r.userId == v.userId
  {
    v.(show := !v.show)
  }

  /** The toggle button's text. */
  function ToggleLabel(v: View): (r: string)
    ensures |r| > 5 && (r[..5] == "Hide " <==> !Toggle(v).show) && r[4..] == " My Bookings"
  {
    assert "Show My Bookings"[0] != "Hide "[0];
    if v.show then "Hide My Bookings" else "Show My Bookings"
  }

  /**
   * Whether the render that moves the component from `before` to `after` runs the query.
   * The effect depends on `[userId, show]`: it runs after mounting (`before` is `None`) and
   * after any render that changes one of those two, and it queries only when `show` holds.
   */
  function ShouldFetch(before: Option<View>, after: View): (r: bool)
    ensures r ==> RenderPanel(after).Some?
    ensures before.None? ==> (r <==> after.show)
    ensures before.Some? && !before.value.show && after.show ==> r
    ensures before.Some? && before.value.userId != after.userId && after.show ==> r
    ensures before.Some? && before.value.userId == after.userId && before.value.show == after.show ==> !r
  {
    var depsChanged := match before
      case None => true
      case Some(b) => b.userId != after.userId || b.show != after.show;
    depsChanged && after.show
  }

  /** The query's answer: rows on success, the previous bookings kept on an error. */
  function OnFetched(v: View, result: Option<seq<Booking>>): (r: View)
    ensures r.show == v.show
    ensures r.bookings == if result.Some? then result.value else v.bookings
  {
    match result
    case Some(rows) => v.(bookings := rows)
    case None => v
  }

  /** The open panel: the empty message and the rows. */
  datatype Panel = Panel(emptyMessage: Option<string>, rows: seq<Row>)

  /** The panel under the button, present only while shown. */
  function RenderPanel(v: View): (r: Option<Panel>)
    ensures r.Some? <==> v.show
    ensures r.Some? ==> (r.value.emptyMessage == Some(EmptyMessage) <==> |v.bookings| == 0)
    ensures r.Some? ==> r.value.emptyMessage.None? || r.value.emptyMessage == Some(EmptyMessage)
    ensures r.Some? ==> |r.value.rows| == |v.bookings|
    ensures r.Some? ==> forall i :: 0 <= i < |v.bookings| ==> r.value.rows[i] == RenderRow(v.bookings[i])
  {
    if !v.show then None
    else
      var msg := if |v.bookings| == 0 then Some(EmptyMessage) else None;
      Some(Panel(msg, seq(|v.bookings|, i requires 0 <= i < |v.bookings| => RenderRow(v.bookings[i]))))
  }

  /** Toggling twice is the identity; the label names the action the next click performs. */
  lemma ToggleTwice(v: View)
    ensures Toggle(Toggle(v)) == v
    ensures ToggleLabel(v) == "Hide My Bookings" <==> RenderPanel(v).Some?
    ensures ToggleLabel(Toggle(v)) != ToggleLabel(v)
  {
  }

  /**
   * Mounting queries nothing; opening the panel queries once; the answer's render does not
   * query again, and the panel then lists exactly the fetched rows. Closing queries nothing.
   */
  lemma OpenAndFetch(userId: string, rows: seq<Booking>)
    ensures !ShouldFetch(None, Mounted(userId))
    ensures ShouldFetch(Some(Mounted(userId)), Toggle(Mounted(userId)))
    ensures var open := Toggle(Mounted(userId));
            var v := OnFetched(open, Some(rows));
            && !ShouldFetch(Some(open), v)
            && RenderPanel(v).Some? && |RenderPanel(v).value.rows| == |rows|
            && (RenderPanel(v).value.emptyMessage.Some? <==> rows == [])
            && !ShouldFetch(Some(v), Toggle(v))
  {
  }

  /** A booking whose join came back empty shows the fallbacks and still its transaction id. */
  lemma EmptyJoinFallbacks(b: Booking)
    requires b.events == Some([]) || b.events == None
    ensures RenderRow(b) == Row("Unknown Event", "N/A", "N/A", "N/A", b.txnId)
  {
  }

  /** A price of zero is shown as `₹0`, not as missing. */
  lemma ZeroPriceShown()
    ensures PriceText(Some(0)) == [Rupee] + "0"
  {
    assert UnsignedJsNumber(0) == "0";
  }
}

=== FILE: orders.dfy ===
/**
 * The server's in-memory order store (`server/orders.ts`): a map from order id to order,
 * changed by the create route and the payment-confirmation route.
 *
 * The clock reading and random draw that make up a new id, and the success of the ticket
 * step run after confirmation, are parameters.
 */
module Orders {
  import opened Base
  import opened Decimal
  import Text

  datatype OrderStatus = Pending | Paid

  /** An order; `amount` is in paise and `txnId` is absent until a confirmation supplies one. */
  datatype Order = Order(
    id: string,
    eventId: string,
    amount: int,
    email: string,
    status: OrderStatus,
    createdAt: int,
    txnId: Option<string>)

  type Store = map<string, Order>

  /** The JSON body of `POST /api/orders`. */
  datatype CreateRequest = CreateRequest(eventId: string, amount: int, email: string)

  /** The JSON body of a response. */
  datatype Body =
    | OrderBody(order: Order)
    | ErrorBody(error: string)
    | ConfirmedBody(ok: bool, order: Order)

  datatype Response = Response(status: nat, body: Body)

  const NotFoundMessage := "Order not found"
  const TicketFailureMessage := "Failed to send ticket"

  /** `ORD-<milliseconds>-<random draw>`, the draw being `Math.floor(Math.random()*1000)`. */
  function OrderId(millis: nat, draw: nat): (id: string)
    requires draw < 1000
    ensures |id| > 4 && id[..4] == "ORD-"
  {
    "ORD-" + NatToString(millis) + "-" + NatToString(draw)
  }

  /** Ids are built from digits, `O`, `R`, `D` and `-` only. */
  lemma OrderIdAlphabet(millis: nat, draw: nat)
    requires draw < 1000
    ensures forall i :: 0 <= i < |OrderId(millis, draw)| ==>
              IsDigit(OrderId(millis, draw)[i]) || OrderId(millis, draw)[i] in "ORD-"
  {
    var a, b := NatToString(millis), NatToString(draw);
    assert OrderId(millis, draw) == "ORD-" + a + "-" + b;
    forall i | 0 <= i < |OrderId(millis, draw)|
      ensures IsDigit(OrderId(millis, draw)[i]) || OrderId(millis, draw)[i] in "ORD-"
    {
      if 4 <= i < 4 + |a| {
        assert OrderId(millis, draw)[i] == a[i - 4];
      } else if 5 + |a| <= i {
        assert OrderId(millis, draw)[i] == b[i - 5 - |a|];
      }
    }
  }

  /** Two ids coincide only when both the clock reading and the random draw do. */
  lemma OrderIdInjective(m1: nat, d1: nat, m2: nat, d2: nat)
    requires d1 < 1000 && d2 < 1000
    ensures OrderId(m1, d1) == OrderId(m2, d2) <==> m1 == m2 && d1 == d2
  {
    if OrderId(m1, d1) == OrderId(m2, d2) {
      var a1, b1 := NatToString(m1), NatToString(d1);
      var a2, b2 := NatToString(m2), NatToString(d2);
      assert OrderId(m1, d1)[4..] == a1 + "-" + b1;
      assert OrderId(m2, d2)[4..] == a2 + "-" + b2;
      assert '-' !in a1 && '-' !in a2 by {
        assert forall i :: 0 <= i < |a1| ==> IsDigit(a1[i]);
        assert forall i :: 0 <= i < |a2| ==> IsDigit(a2[i]);
      }
      Text.SplitFirstAt(a1, '-', b1);
      Text.SplitFirstAt(a2, '-', b2);
      NatToStringInjective(m1, m2);
      NatToStringInjective(d1, d2);
    }
  }

  /**
   * `POST /api/orders`: stores a new `pending` order under a fresh id and answers with it.
   * Nothing in the request is checked, and the assignment is unconditional.
   */
  function Create(store: Store, req: CreateRequest, millis: nat, draw: nat, createdAt: int): (r: (Store, Response))
    requires draw < 1000
    ensures var id := OrderId(millis, draw);
            && id in r.0
            && r.0.Keys == store.Keys + {id}
            && r.1 == Response(200, OrderBody(r.0[id]))
            && r.0[id].id == id
            && r.0[id].status == Pending
            && r.0[id].txnId == None
            && r.0[id].eventId == req.eventId
            && r.0[id].amount == req.amount
            && r.0[id].email == req.email
            && r.0[id].createdAt == createdAt
    ensures forall k :: k in store && k != OrderId(millis, draw) ==> r.0[k] == store[k]
  {
    var id := OrderId(millis, draw);
    var order := Order(id, req.eventId, req.amount, req.email, Pending, createdAt, None);
    var store' := store[id := order];
    (store', Response(200, OrderBody(store'[id])))
  }

  /** The order a confirmation leaves behind: marked paid with the supplied transaction id, whatever its status was. */
  function MarkPaid(order: Order, txnId: Option<string>): (o: Order)
    ensures o.status == Paid && o.txnId == txnId
    ensures o.id == order.id && o.eventId == order.eventId && o.amount == order.amount
    ensures o.email == order.email && o.createdAt == order.createdAt
  {
    order.(status := Paid, txnId := txnId)
  }

  /**
   * `POST /api/orders/:id/confirm`: an unknown id gets 404 and changes nothing; a known one
   * is marked paid before the ticket step runs, so a failing ticket step yields 500 with the
   * order still paid.
   */
  function Confirm(store: Store, id: string, txnId: Option<string>, ticketSent: bool): (r: (Store, Response))
    ensures id !in store ==> r.0 == store && r.1 == Response(404, ErrorBody(NotFoundMessage))
    ensures id in store ==>
              && r.0.Keys == store.Keys
              && r.0[id] == MarkPaid(store[id], txnId)
              && (forall k :: k in store && k != id ==> r.0[k] == store[k])
              && r.1 == (if ticketSent then Response(200, ConfirmedBody(true, r.0[id]))
                         else Response(500, ErrorBody(TicketFailureMessage)))
  {
    if id !in store then (store, Response(404, ErrorBody(NotFoundMessage)))
    else
      var store' := store[id := MarkPaid(store[id], txnId)];
      if ticketSent then (store', Response(200, ConfirmedBody(true, store'[id])))
      else (store', Response(500, ErrorBody(TicketFailureMessage)))
  }

  /**
   * The confirmation route as this file wires it: the ticket step it awaits is the local stub
   * that only logs, which always resolves, so every known id is answered 200.
   */
  function ConfirmWithStub(store: Store, id: string, txnId: Option<string>): (r: (Store, Response))
    ensures id !in store ==> r.1 == Response(404, ErrorBody(NotFoundMessage)) && r.0 == store
    ensures id in store ==> r.1 == Response(200, ConfirmedBody(true, MarkPaid(store[id], txnId)))
    ensures id in store ==> r.0 == store[id := MarkPaid(store[id], txnId)]
  {
    Confirm(store, id, txnId, true)
  }

  /** Every order sits under its own id, and an order still pending carries no transaction id. */
  ghost predicate WellFormed(store: Store)
  {
    forall k :: k in store ==> store[k].id == k && (store[k].status == Pending ==> store[k].txnId == None)
  }

  lemma CreatePreservesWellFormed(store: Store, req: CreateRequest, millis: nat, draw: nat, createdAt: int)
    requires draw < 1000
    requires WellFormed(store)
    ensures WellFormed(Create(store, req, millis, draw, createdAt).0)
  {
  }

  lemma ConfirmPreservesWellFormed(store: Store, id: string, txnId: Option<string>, ticketSent: bool)
    requires WellFormed(store)
    ensures WellFormed(Confirm(store, id, txnId, ticketSent).0)
  {
  }

  /** Confirmation never moves an order back: whatever was paid stays paid. */
  lemma ConfirmKeepsPaid(store: Store, id: string, txnId: Option<string>, ticketSent: bool, k: string)
    requires k in store && store[k].status == Paid
    ensures var s := Confirm(store, id, txnId, ticketSent).0;
            k in s && s[k].status == Paid
  {
  }

  /**
   * A create whose id is already taken replaces the earlier order outright, even a paid one:
   * the store does not grow and the order under that id is pending again.
   */
  lemma CreateCollisionOverwrites(store: Store, req: CreateRequest, millis: nat, draw: nat, createdAt: int)
    requires draw < 1000
    requires OrderId(millis, draw) in store
    ensures var s := Create(store, req, millis, draw, createdAt).0;
            |s| == |store| && s[OrderId(millis, draw)].status == Pending && s[OrderId(millis, draw)].txnId == None
  {
    var s := Create(store, req, millis, draw, createdAt).0;
    assert s.Keys == store.Keys;
  }

  /** No validation: an empty event id and a zero or negative amount are stored like any other. */
  lemma CreateAcceptsAnything(store: Store, amount: int, email: string, millis: nat, draw: nat, createdAt: int)
    requires draw < 1000 && amount <= 0
    ensures var (s, resp) := Create(store, CreateRequest("", amount, email), millis, draw, createdAt);
            resp.status == 200 && resp.body.OrderBody? && resp.body.order.amount == amount && resp.body.order.eventId == ""
            && OrderId(millis, draw) in s
  {
  }

  /**
   * There is no status guard: a second confirmation of the same order succeeds again,
   * leaves it paid and replaces the transaction id with the newer one.
   */
  lemma ConfirmTwiceOverwritesTxn(store: Store, id: string, t1: Option<string>, t2: Option<string>, b1: bool, b2: bool)
    requires id in store
    ensures var s1 := Confirm(store, id, t1, b1).0;
            var (s2, resp) := Confirm(s1, id, t2, b2);
            s2[id].status == Paid && s2[id].txnId == t2 && (b2 ==> resp.status == 200)
            && s2 == Confirm(store, id, t2, b2).0
  {
    var s1 := Confirm(store, id, t1, b1).0;
    var s2 := Confirm(s1, id, t2, b2).0;
    var s3 := Confirm(store, id, t2, b2).0;
    assert s2.Keys == s3.Keys;
    assert forall k :: k in s2 ==> s2[k] == s3[k];
  }

  /** Confirming again with the same transaction id leaves the store as the first confirmation left it. */
  lemma ConfirmSameTxnIdempotent(store: Store, id: string, t: Option<string>, b1: bool, b2: bool)
    ensures var s1 := Confirm(store, id, t, b1).0;
            Confirm(s1, id, t, b2).0 == s1
  {
    var s1 := Confirm(store, id, t, b1).0;
    if id in store {
      var s2 := Confirm(s1, id, t, b2).0;
      assert s2.Keys == s1.Keys;
      assert forall k :: k in s2 ==> s2[k] == s1[k];
    }
  }

  /** The ticket step only decides the response: the store is the same whether it succeeded or failed. */
  lemma TicketOutcomeDoesNotChangeStore(store: Store, id: string, t: Option<string>)
    ensures Confirm(store, id, t, false).0 == Confirm(store, id, t, true).0
    ensures id in store ==> Confirm(store, id, t, false).1 == Response(500, ErrorBody(TicketFailureMessage))
  {
  }
}

=== FILE: selections.dfy ===
/**
 * The featured selections of the home page (`src/components/pages/HomePage.tsx`) and the
 * core/support split of the team page (`src/components/pages/TeamPage.tsx`).
 */
module Selections {
  import opened Base
  import opened EventData
  import opened TeamData

  /** `sampleEvents.filter(event => event.featured).slice(0, 3)`. */
  function FeaturedEvents(events: seq<Event>): (r: seq<Event>)
    ensures |r| <= 3
    ensures forall i :: 0 <= i < |r| ==> r[i] in events && EventData.IsFeatured(r[i])
  {
    Take(Filter(events, EventData.IsFeatured), 3)
  }

  /** `teamMembers.filter(member => member.featured)`, on both the home page and the team page. */
  function CoreTeam(members: seq<TeamMember>): (r: seq<TeamMember>)
    ensures forall i :: 0 <= i < |r| ==> r[i] in members && TeamData.IsFeatured(r[i])
    ensures forall i :: 0 <= i < |members| && TeamData.IsFeatured(members[i]) ==> members[i] in r
    ensures IsSubsequence(r, members)
  {
    Filter(members, TeamData.IsFeatured)
  }

  predicate NotFeatured(m: TeamMember)
  {
    !TeamData.IsFeatured(m)
  }

  /** `teamMembers.filter(member => !member.featured)`: a missing flag counts as not featured. */
  function SupportTeam(members: seq<TeamMember>): (r: seq<TeamMember>)
    ensures forall i :: 0 <= i < |r| ==> r[i] in members && r[i].featured != Some(true)
    ensures forall i :: 0 <= i < |members| && members[i].featured != Some(true) ==> members[i] in r
    ensures IsSubsequence(r, members)
  {
    Filter(members, NotFeatured)
  }

  /** The home page shows the first `min(3, k)` featured events, in catalogue order, where `k` is how many there are. */
  lemma FeaturedEventsArePrefix(events: seq<Event>)
    ensures var all := Filter(events, EventData.IsFeatured);
            |FeaturedEvents(events)| == (if |all| < 3 then |all| else 3)
            && FeaturedEvents(events) == all[..|FeaturedEvents(events)|]
  {
  }

  /**
   * The two teams split the roster: no member is in both, together they have as many
   * members as the roster, and as multisets they add up to it.
   */
  lemma TeamsPartitionRoster(members: seq<TeamMember>)
    ensures forall i, j :: 0 <= i < |CoreTeam(members)| && 0 <= j < |SupportTeam(members)| ==>
              CoreTeam(members)[i] != SupportTeam(members)[j]
    ensures |CoreTeam(members)| + |SupportTeam(members)| == |members|
    ensures multiset(CoreTeam(members)) + multiset(SupportTeam(members)) == multiset(members)
  {
    FilterPartition(members, TeamData.IsFeatured, NotFeatured);
  }

  lemma FilterFeaturedEvents()
    ensures Filter(SampleEvents, EventData.IsFeatured) == [NeonNights, TechnoTransformation]
  {
    var p := EventData.IsFeatured;
    var s := SampleEvents;
    assert Filter(s[6..], p) == [];
    assert Filter(s[5..], p) == [] by { assert s[5..][1..] == s[6..]; }
    assert Filter(s[4..], p) == [] by { assert s[4..][1..] == s[5..]; }
    assert Filter(s[3..], p) == [] by { assert s[3..][1..] == s[4..]; }
    assert Filter(s[2..], p) == [TechnoTransformation] by { assert s[2..][1..] == s[3..]; }
    assert Filter(s[1..], p) == [TechnoTransformation] by { assert s[1..][1..] == s[2..]; }
  }

  /** On the sample data the home page features the Mumbai and Bangalore events. */
  lemma SampleFeaturedEvents()
    ensures FeaturedEvents(SampleEvents) == [NeonNights, TechnoTransformation]
  {
    FilterFeaturedEvents();
  }

  /** On the roster the core team is the two founders, in roster order. */
  lemma SampleCoreTeam()
    ensures CoreTeam(TeamMembers) == [Chirag, Priyam]
  {
    var p := TeamData.IsFeatured;
    var s := TeamMembers;
    assert Filter(s[6..], p) == [];
    assert Filter(s[5..], p) == [] by { assert s[5..][1..] == s[6..]; }
    assert Filter(s[4..], p) == [] by { assert s[4..][1..] == s[5..]; }
    assert Filter(s[3..], p) == [] by { assert s[3..][1..] == s[4..]; }
    assert Filter(s[2..], p) == [] by { assert s[2..][1..] == s[3..]; }
    assert Filter(s[1..], p) == [Priyam] by { assert s[1..][1..] == s[2..]; }
  }

  /** On the roster the support team is the other four members, in roster order. */
  lemma SampleSupportTeam()
    ensures SupportTeam(TeamMembers) == [Alankrita, Mansi, DeltaOrbit, Aman]
  {
    var q := NotFeatured;
    var s := TeamMembers;
    assert Filter(s[6..], q) == [];
    assert Filter(s[5..], q) == [Aman] by { assert s[5..][1..] == s[6..]; }
    assert Filter(s[4..], q) == [DeltaOrbit, Aman] by { assert s[4..][1..] == s[5..]; }
    assert Filter(s[3..], q) == [Mansi, DeltaOrbit, Aman] by { assert s[3..][1..] == s[4..]; }
    assert Filter(s[2..], q) == [Alankrita, Mansi, DeltaOrbit, Aman] by { assert s[2..][1..] == s[3..]; }
    assert Filter(s[1..], q) == [Alankrita, Mansi, DeltaOrbit, Aman] by { assert s[1..][1..] == s[2..]; }
  }
}

=== FILE: team_card.dfy ===
/**
 * What a team card shows for a member (`src/components/TeamCard.tsx`): at most four skill
 * badges with a "+N more" badge for the rest, one social button per handle, and the
 * "Core Team" badge for featured members.
 */
module TeamCard {
  import opened Base
  import opened Decimal
  import opened TeamData
  import Selections

  const MaxSkills: nat := 4

  /** `member.skills.slice(0, 4)`. */
  function ShownSkills(skills: seq<string>): (r: seq<string>)
    ensures |r| == if |skills| < MaxSkills then |skills| else MaxSkills
    ensures r == skills[..|r|]
  {
    Take(skills, MaxSkills)
  }

  /** The count on the overflow badge, present only when `member.skills.length > 4`. */
  function Overflow(skills: seq<string>): (r: Option<nat>)
    ensures r.Some? <==> |skills| > MaxSkills
    ensures r.Some? ==> |ShownSkills(skills)| + r.value == |skills|
    ensures r.None? ==> ShownSkills(skills) == skills
  {
    if |skills| > MaxSkills then Some(|skills| - MaxSkills) else None
  }

  /** The overflow badge's text, `+<n> more`. */
  function OverflowText(n: nat): (t: string)
    ensures |t| > 6 && t[0] == '+' && t[|t| - 5..] == " more"
    ensures ParseNat(t[1..|t| - 5]) == Some(n)
    ensures t[1] == '0' ==> n == 0 && t == "+0 more"
  {
    var t := "+" + NatToString(n) + " more";
    assert t[1..|t| - 5] == NatToString(n);
    ParseNatRoundTrip(n);
    t
  }

  /** The shown skills followed by the hidden ones are all the skills, in order, and the badge counts the hidden ones. */
  lemma SkillsSplit(skills: seq<string>)
    ensures ShownSkills(skills) + skills[|ShownSkills(skills)|..] == skills
    ensures |skills[|ShownSkills(skills)|..]| == Overflow(skills).GetOr(0)
  {
  }

  /** The lucide icons the social buttons use. */
  datatype Icon = TwitterIcon | InstagramIcon | LinkedinIcon | MusicIcon

  /** `socialIcons`: every platform key has an icon, and no two share one. */
  function IconOf(p: Platform): (r: Icon)
    ensures r == TwitterIcon <==> p == Twitter
    ensures r == InstagramIcon <==> p == Instagram
    ensures r == LinkedinIcon <==> p == Linkedin
    ensures r == MusicIcon <==> p == Spotify
  {
    match p
    case Twitter => TwitterIcon
    case Instagram => InstagramIcon
    case Linkedin => LinkedinIcon
    case Spotify => MusicIcon
  }

  lemma IconOfInjective(p: Platform, q: Platform)
    ensures IconOf(p) == IconOf(q) <==> p == q
  {
  }

  datatype SocialButton = SocialButton(key: string, icon: Icon, handle: string)

  /** `Object.entries(member.social).map(...)`: one button per handle, in the object's key order. */
  function SocialButtons(social: seq<(Platform, string)>): (r: seq<SocialButton>)
    ensures |r| == |social|
    ensures forall i :: 0 <= i < |r| ==>
              r[i].key == PlatformKey(social[i].0) && r[i].icon == IconOf(social[i].0) && r[i].handle == social[i].1
  {
    seq(|social|, i requires 0 <= i < |social| => SocialButton(PlatformKey(social[i].0), IconOf(social[i].0), social[i].1))
  }

  /** The platforms with a button are exactly the platforms with a handle. */
  lemma ButtonPerHandle(social: seq<(Platform, string)>, p: Platform)
    ensures (exists i :: 0 <= i < |social| && social[i].0 == p)
            <==> (exists j :: 0 <= j < |SocialButtons(social)| && SocialButtons(social)[j].icon == IconOf(p))
  {
    var b := SocialButtons(social);
    if exists j :: 0 <= j < |b| && b[j].icon == IconOf(p) {
      var j :| 0 <= j < |b| && b[j].icon == IconOf(p);
      IconOfInjective(social[j].0, p);
    }
  }

  /** The "Core Team" badge is rendered on `member.featured`: the cards that carry it are exactly those of the core team the pages list. */
  lemma CoreBadgeIffCoreTeam(members: seq<TeamMember>, i: nat)
    requires i < |members|
    ensures TeamData.IsFeatured(members[i]) <==> members[i] in Selections.CoreTeam(members)
  {
  }

  /** On the roster no member has more than four skills, and every card shows all of them. */
  lemma SampleCardsShowAllSkills()
    ensures forall i :: 0 <= i < |TeamMembers| ==>
              Overflow(TeamMembers[i].skills) == None && ShownSkills(TeamMembers[i].skills) == TeamMembers[i].skills
  {
  }

  /** The last roster member's buttons come in the record's key order: LinkedIn, then Instagram. */
  lemma SampleSocialOrder()
    ensures var b := SocialButtons(Aman.social);
            |b| == 2 && b[0].key == "linkedin" && b[1].key == "instagram"
  {
  }
}

=== FILE: team_data.dfy ===
/** The team member record and the team roster (`src/data/team.ts`). */
module TeamData {
  import opened Base

  /** The keys the `social` object may carry. */
  datatype Platform = Twitter | Instagram | Linkedin | Spotify

  /** The key as written in the `social` object. */
  function PlatformKey(p: Platform): string
  {
    match p
    case Twitter => "twitter"
    case Instagram => "instagram"
    case Linkedin => "linkedin"
    case Spotify => "spotify"
  }

  /**
   * A member. `social` lists the handles present on the record in the object's key order;
   * `featured` is the optional flag. The image and bio are not modelled.
   */
  datatype TeamMember = TeamMember(
    id: string,
    name: string,
    role: string,
    skills: seq<string>,
    social: seq<(Platform, string)>,
    featured: Option<bool>)

  /** JavaScript truthiness of the optional `featured` flag: only `true` counts. */
  predicate IsFeatured(m: TeamMember)
  {
    m.featured == Some(true)
  }

  const Chirag := TeamMember("1", "Chirag Shukla", "Founder & Creative Director",
    ["Event Strategy", "Artist Relations", "Brand Partnerships", "Creative Vision"],
    [(Twitter, "@arjunmehta_ds"), (Instagram, "@arjunmehta.official"), (Linkedin, "arjun-mehta-dripsync")], Some(true))
  const Priyam := TeamMember("2", "Priyam Arneja", "Co-Founder & Head of Production",
    ["Stage Design", "Audio Engineering", "Logistics", "Safety Management"],
    [(Instagram, "@priya.production"), (Linkedin, "priya-sharma-events")], Some(true))
  const Alankrita := TeamMember("3", "Alankrita Das", "Co-founder & Talent Curator",
    ["Artist Booking", "Music Curation", "International Relations", "Trend Analysis"],
    [(Twitter, "@karansingh_music"), (Instagram, "@karan.curator"), (Spotify, "karan-singh-playlists")], None)
  const Mansi := TeamMember("4", "Mansi Chorwade", "Experience Designer",
    ["UX Design", "Interactive Tech", "Visual Arts", "3D Modeling"],
    [(Instagram, "@maya.designs"), (Linkedin, "maya-patel-designer")], None)
  const DeltaOrbit := TeamMember("5", "DeltaOrbit", "Marketing Strategist",
    ["Digital Marketing", "Social Media", "Brand Strategy", "Analytics"],
    [(Twitter, "@rohitgupta_mk"), (Instagram, "@rohit.marketing"), (Linkedin, "rohit-gupta-marketing")], None)
  const Aman := TeamMember("6", "Aman Singh", "Operations Manager",
    ["Operations", "Project Management", "Team Leadership", "Process Optimization"],
    [(Linkedin, "aman-singh-operations"), (Instagram, "@aman.operations")], None)

  /** The roster, in listing order. */
  const TeamMembers: seq<TeamMember> := [Chirag, Priyam, Alankrita, Mansi, DeltaOrbit, Aman]
}

=== FILE: text.dfy ===
/** String operations the site relies on: ASCII lower-casing, substring search, the last segment of a path, splitting on a delimiter. */
module Text {

  /** `toLowerCase` restricted to ASCII letters; every other character is left as it is. */
  function LowerChar(c: char): char
  {
    if 'A' <= c <= 'Z' then (c as int - 'A' as int + 'a' as int) as char else c
  }

  function Lower(s: string): (r: string)
    ensures |r| == |s|
    ensures forall i :: 0 <= i < |s| ==> r[i] == LowerChar(s[i])
  {
    seq(|s|, i requires 0 <= i < |s| => LowerChar(s[i]))
  }

  /** Lower-casing twice is lower-casing once, so a query's letter case never matters. */
  lemma LowerIdempotent(s: string)
    ensures Lower(Lower(s)) == Lower(s)
  {
  }

  /** `needle` sits in `haystack` starting at index `i`. */
  predicate OccursAt(haystack: string, needle: string, i: nat)
  {
    i + |needle| <= |haystack| && haystack[i..i + |needle|] == needle
  }

  /** JavaScript's `String.prototype.includes`: is `needle` a substring of `haystack`? */
  function Contains(haystack: string, needle: string): bool
    decreases |haystack|
  {
    if |needle| > |haystack| then false
    else if haystack[..|needle|] == needle then true
    else Contains(haystack[1..], needle)
  }

  /** `Contains` holds exactly when the needle occurs at some position of the haystack. */
  lemma {:induction false} ContainsIffOccurs(haystack: string, needle: string)
    ensures Contains(haystack, needle) <==> exists i: nat :: OccursAt(haystack, needle, i)
    decreases |haystack|
  {
    if |needle| > |haystack| {
    } else if haystack[..|needle|] == needle {
      assert OccursAt(haystack, needle, 0);
    } else {
      var tail := haystack[1..];
      ContainsIffOccurs(tail, needle);
      if exists i: nat :: OccursAt(tail, needle, i) {
        var i: nat :| OccursAt(tail, needle, i);
        assert haystack[i + 1..i + 1 + |needle|] == tail[i..i + |needle|];
        assert OccursAt(haystack, needle, i + 1);
      }
      if exists i: nat :: OccursAt(haystack, needle, i) {
        var i: nat :| OccursAt(haystack, needle, i);
        assert i != 0;
        assert tail[i - 1..i - 1 + |needle|] == haystack[i..i + |needle|];
        assert OccursAt(tail, needle, i - 1);
      }
    }
  }

  /** The empty string is contained in every string. */
  lemma EmptyIsContained(haystack: string)
    ensures Contains(haystack, "")
  {
  }

  /**
   * The text after the last `sep`, or all of `s` when there is none. Unlike Node's
   * `path.basename`, a trailing separator gives the empty segment.
   */
  function LastSegment(s: string, sep: char): (r: string)
    ensures sep !in r
    decreases |s|
  {
    if |s| == 0 then ""
    else if s[|s| - 1] == sep then ""
    else LastSegment(s[..|s| - 1], sep) + [s[|s| - 1]]
  }

  /** The last segment of `dir + sep + name` is `name` whenever `name` holds no separator. */
  lemma {:induction false} LastSegmentOfJoin(dir: string, sep: char, name: string)
    requires sep !in name
    ensures LastSegment(dir + [sep] + name, sep) == name
    decreases |name|
  {
    var s := dir + [sep] + name;
    if |name| == 0 {
      assert s[|s| - 1] == sep;
    } else {
      var init := name[..|name| - 1];
      assert s[..|s| - 1] == dir + [sep] + init;
      LastSegmentOfJoin(dir, sep, init);
      assert name == init + [name[|name| - 1]];
    }
  }

  /** The pieces of `s` between occurrences of `sep`: JavaScript's `String.prototype.split` on one character. */
  function Split(s: string, sep: char): (r: seq<string>)
    ensures |r| >= 1
    decreases |s|
  {
    if |s| == 0 then [""]
    else if s[0] == sep then [""] + Split(s[1..], sep)
    else
      var rest := Split(s[1..], sep);
      [[s[0]] + rest[0]] + rest[1..]
  }

  /** The pieces joined with `sep` between them: JavaScript's `Array.prototype.join`. */
  function Join(pieces: seq<string>, sep: char): string
    requires |pieces| >= 1
    decreases |pieces|
  {
    if |pieces| == 1 then pieces[0] else pieces[0] + [sep] + Join(pieces[1..], sep)
  }

  lemma JoinCons(x: string, rest: seq<string>, sep: char)
    requires |rest| >= 1
    ensures Join([x] + rest, sep) == x + [sep] + Join(rest, sep)
  {
    assert ([x] + rest)[1..] == rest;
  }

  lemma {:induction false} SplitNoSeparator(s: string, sep: char)
    requires sep !in s
    ensures Split(s, sep) == [s]
    decreases |s|
  {
    if |s| != 0 {
      SplitNoSeparator(s[1..], sep);
      assert [s[0]] + s[1..] == s;
    }
  }

  lemma {:induction false} SplitAtSeparator(x: string, sep: char, y: string)
    requires sep !in x
    ensures Split(x + [sep] + y, sep) == [x] + Split(y, sep)
    decreases |x|
  {
    var s := x + [sep] + y;
    if |x| == 0 {
      assert s[1..] == y;
    } else {
      assert s[1..] == x[1..] + [sep] + y;
      SplitAtSeparator(x[1..], sep, y);
      assert [x[0]] + x[1..] == x;
    }
  }

  /** Splitting a join recovers the pieces, as long as no piece contains the separator. */
  lemma {:induction false} SplitJoin(pieces: seq<string>, sep: char)
    requires |pieces| >= 1
    requires forall i :: 0 <= i < |pieces| ==> sep !in pieces[i]
    ensures Split(Join(pieces, sep), sep) == pieces
    decreases |pieces|
  {
    if |pieces| == 1 {
      SplitNoSeparator(pieces[0], sep);
    } else {
      SplitJoin(pieces[1..], sep);
      SplitAtSeparator(pieces[0], sep, Join(pieces[1..], sep));
      assert [pieces[0]] + pieces[1..] == pieces;
    }
  }

  /** Splits `s` at its first `sep` into the text before and the text after it. */
  function SplitFirst(s: string, sep: char): (r: (string, string))
    ensures sep !in s ==> r == (s, "")
    ensures sep in s ==> sep !in r.0 && s == r.0 + [sep] + r.1
    decreases |s|
  {
    if |s| == 0 then ("", "")
    else if s[0] == sep then ("", s[1..])
    else
      assert s == [s[0]] + s[1..];
      var (a, b) := SplitFirst(s[1..], sep);
      ([s[0]] + a, b)
  }

  /** Cutting `x + sep + y` at its first separator gives back `x` and `y` when `x` holds none. */
  lemma {:induction false} SplitFirstAt(x: string, sep: char, y: string)
    requires sep !in x
    ensures SplitFirst(x + [sep] + y, sep) == (x, y)
    decreases |x|
  {
    var s := x + [sep] + y;
    if |x| == 0 {
      assert s[1..] == y;
    } else {
      assert s[1..] == x[1..] + [sep] + y;
      SplitFirstAt(x[1..], sep, y);
      assert [x[0]] + x[1..] == x;
    }
  }
}

=== FILE: ticket.dfy ===
/**
 * Ticket issuing (`server/ticket.ts`): the text written to the PDF, the file it is written
 * to, the mail that carries it, and the order of the file-system and mail effects.
 *
 * PDF layout, SMTP and the file system are not modelled; their effects are recorded as a
 * trace, and whether sending and deleting succeed are parameters.
 */
module Ticket {
  import opened Base
  import opened Decimal
  import Text
  import opened Orders

  const EmDash: char := '\U{2014}'
  /** The fixed start of every ticket mail's subject, `Your ticket — `. */
  const SubjectPrefix: string := "Your ticket " + [EmDash] + " "
  const Title := "DripSync Ticket"
  const Sender := "\"DripSync\" <you@example.com>"
  const MailText := "Attached is your ticket. Show this at entry."

  /** The ticket's file name, also used as the attachment name. */
  function FileName(id: string): (n: string)
    ensures |n| == |id| + 11 && n[..7] == "ticket-" && n[7..|n| - 4] == id && n[|n| - 4..] == ".pdf"
    ensures '/' !in id ==> '/' !in n
  {
    "ticket-" + id + ".pdf"
  }

  /** The output path: the file name inside the temporary directory `tmpDir` (the resolved `../tmp`). */
  function OutPath(tmpDir: string, id: string): (p: string)
    ensures |p| > |tmpDir| && p[..|tmpDir|] == tmpDir
    ensures '/' !in id ==> Text.LastSegment(p, '/') == FileName(id)
  {
    var p := tmpDir + "/" + FileName(id);
    if '/' !in id then
      Text.LastSegmentOfJoin(tmpDir, '/', FileName(id));
      p
    else p
  }

  /** `order.txnId || 'N/A'`: a missing or empty transaction id is shown as `N/A`. */
  function TxnText(txnId: Option<string>): (t: string)
    ensures txnId == None || txnId == Some("") ==> t == "N/A"
    ensures txnId.Some? && txnId.value != "" ==> t == txnId.value
  {
    match txnId
    case Some(s) => if s != "" then s else "N/A"
    case None => "N/A"
  }

  /** The lines of text written to the ticket, top to bottom. */
  function Lines(order: Order): (lines: seq<string>)
    ensures |lines| == 5 && lines[0] == Title
  {
    [Title,
     "Order: " + order.id,
     "Event: " + order.eventId,
     "Amount: " + [Rupee] + JsNumberString(order.amount),
     "Txn: " + TxnText(order.txnId)]
  }

  /** The fields a reader of the ticket sees. */
  datatype TicketText = TicketText(orderId: string, eventId: string, amount: int, txn: string)

  /** The text after `prefix`, when `s` starts with it. */
  function StripPrefix(s: string, prefix: string): Option<string>
  {
    if |prefix| <= |s| && s[..|prefix|] == prefix then Some(s[|prefix|..]) else None
  }

  /** Reads the fields back from the lines of a ticket, checking the title and every label. */
  function ReadTicket(lines: seq<string>): Option<TicketText>
  {
    if |lines| != 5 || lines[0] != Title then None
    else
      match (StripPrefix(lines[1], "Order: "), StripPrefix(lines[2], "Event: "),
             StripPrefix(lines[3], "Amount: " + [Rupee]), StripPrefix(lines[4], "Txn: "))
      case (Some(id), Some(ev), Some(amountText), Some(txn)) =>
        (match ParseJsNumber(amountText)
         case Some(amount) => Some(TicketText(id, ev, amount, txn))
         case None => None)
      case _ => None
  }

  lemma StripPrefixOf(prefix: string, rest: string)
    ensures StripPrefix(prefix + rest, prefix) == Some(rest)
  {
    assert (prefix + rest)[..|prefix|] == prefix;
    assert (prefix + rest)[|prefix|..] == rest;
  }

  /**
   * A ticket shows the order's id, event and amount exactly, under its title, and the
   * transaction id or `N/A`; reading the lines back yields those values.
   */
  lemma TicketReadsBack(order: Order)
    ensures ReadTicket(Lines(order)) == Some(TicketText(order.id, order.eventId, order.amount, TxnText(order.txnId)))
  {
    JsNumberRoundTrip(order.amount);
    ReadLabelledLines(order.id, order.eventId, JsNumberString(order.amount), TxnText(order.txnId), order.amount);
  }

  /** Five lines laid out as a ticket read back to their values, given that the amount text reads back. */
  lemma ReadLabelledLines(id: string, ev: string, amountText: string, txn: string, amount: int)
    requires ParseJsNumber(amountText) == Some(amount)
    ensures ReadTicket([Title, "Order: " + id, "Event: " + ev, "Amount: " + [Rupee] + amountText, "Txn: " + txn])
            == Some(TicketText(id, ev, amount, txn))
  {
    StripPrefixOf("Order: ", id);
    StripPrefixOf("Event: ", ev);
    StripPrefixOf("Amount: " + [Rupee], amountText);
    StripPrefixOf("Txn: ", txn);
    assert "Amount: " + [Rupee] + amountText == ("Amount: " + [Rupee]) + amountText;
  }

  datatype Attachment = Attachment(filename: string, path: string)

  datatype Mail = Mail(from: string, to: string, subject: string, text: string, attachments: seq<Attachment>)

  /** The mail handed to the transport. */
  function Envelope(order: Order, tmpDir: string): (m: Mail)
    ensures m.to == order.email && m.from == Sender
    ensures |m.subject| == |SubjectPrefix| + |order.id|
    ensures m.subject[..|SubjectPrefix|] == SubjectPrefix && m.subject[|SubjectPrefix|..] == order.id
    ensures m.text == MailText
    ensures |m.attachments| == 1 && m.attachments[0].path == OutPath(tmpDir, order.id)
    ensures '/' !in order.id ==> m.attachments[0].filename == Text.LastSegment(m.attachments[0].path, '/')
  {
    Mail(Sender, order.email, SubjectPrefix + order.id, MailText,
         [Attachment(FileName(order.id), OutPath(tmpDir, order.id))])
  }

  datatype Effect =
    | WriteFile(path: string, lines: seq<string>)
    | SendMail(mail: Mail)
    | DeleteFile(path: string)

  datatype Failure = SendFailed | DeleteFailed

  /** The awaited result of the ticket step: it resolves, or rejects with the failure that escaped. */
  datatype Outcome = Resolved | Rejected(failure: Failure)

  datatype Run = Run(effects: seq<Effect>, outcome: Outcome)

  /**
   * `generateAndSendTicket`: write the ticket, send it, then delete the file. A rejected send
   * propagates before the delete is reached; a failing delete propagates after the mail went out.
   */
  function GenerateAndSend(order: Order, tmpDir: string, sendOk: bool, deleteOk: bool): (r: Run)
    ensures |r.effects| >= 2
    ensures r.effects[0] == WriteFile(OutPath(tmpDir, order.id), Lines(order))
    ensures r.effects[1] == SendMail(Envelope(order, tmpDir))
    ensures forall i :: 0 <= i < |r.effects| && r.effects[i].DeleteFile? ==>
              sendOk && i == 2 && r.effects[i].path == OutPath(tmpDir, order.id)
    ensures sendOk ==> |r.effects| == 3 && r.effects[2].DeleteFile?
    ensures r.outcome == Resolved <==> sendOk && deleteOk
    ensures !sendOk ==> r.outcome == Rejected(SendFailed)
  {
    var path := OutPath(tmpDir, order.id);
    var sent := [WriteFile(path, Lines(order)), SendMail(Envelope(order, tmpDir))];
    if !sendOk then Run(sent, Rejected(SendFailed))
    else if !deleteOk then Run(sent + [DeleteFile(path)], Rejected(DeleteFailed))
    else Run(sent + [DeleteFile(path)], Resolved)
  }

  /** The file that is written is the one attached to the mail and the one deleted afterwards. */
  lemma AttachmentIsWrittenFile(order: Order, tmpDir: string, sendOk: bool, deleteOk: bool)
    ensures var r := GenerateAndSend(order, tmpDir, sendOk, deleteOk);
            var mail := r.effects[1].mail;
            && |mail.attachments| == 1
            && mail.attachments[0].path == r.effects[0].path
            && (sendOk ==> r.effects[2].path == r.effects[0].path)
            && mail.to == order.email
  {
  }

  /** Every id the create route generates is free of `/`, so its attachment name is the last segment of its output path. */
  lemma GeneratedIdAttachmentName(tmpDir: string, millis: nat, draw: nat)
    requires draw < 1000
    ensures Text.LastSegment(OutPath(tmpDir, OrderId(millis, draw)), '/') == FileName(OrderId(millis, draw))
  {
    OrderIdAlphabet(millis, draw);
  }

  /** The path depends on the id alone, and different ids never share a ticket file. */
  lemma OutPathInjective(tmpDir: string, a: string, b: string)
    ensures OutPath(tmpDir, a) == OutPath(tmpDir, b) <==> a == b
  {
    if OutPath(tmpDir, a) == OutPath(tmpDir, b) {
      var p := OutPath(tmpDir, a);
      var k := |tmpDir| + 8;
      assert |a| == |b|;
      assert a == p[k..k + |a|];
      assert b == OutPath(tmpDir, b)[k..k + |b|];
    }
  }
}

=== FILE: uri_component.dfy ===
/**
 * ECMAScript's `encodeURIComponent` and `decodeURIComponent`.
 *
 * Characters outside the unescaped set are written as the percent-encoded octets of their
 * UTF-8 form (section 2.1 of RFC 3986, upper-case hexadecimal; UTF-8 as in RFC 3629).
 * Dafny characters are Unicode scalar values, so the lone surrogates for which
 * `encodeURIComponent` throws cannot occur.
 */
module UriComponent {
  import opened Base
  import opened Decimal

  newtype Byte = b: int | 0 <= b < 256

  predicate IsAsciiAlpha(c: char)
  {
    'A' <= c <= 'Z' || 'a' <= c <= 'z'
  }

  /** The characters `encodeURIComponent` leaves as they are: letters, digits and `- _ . ! ~ * ' ( )`. */
  predicate Unescaped(c: char)
  {
    IsAsciiAlpha(c) || IsDigit(c) || c in "-_.!~*'()"
  }

  /** The unreserved characters of section 2.3 of RFC 3986. */
  predicate Unreserved(c: char)
  {
    IsAsciiAlpha(c) || IsDigit(c) || c in "-._~"
  }

  /** Every RFC 3986 unreserved character passes through `encodeURIComponent` untouched. */
  lemma UnreservedIsUnescaped(c: char)
    ensures Unreserved(c) ==> Unescaped(c)
  {
  }

  function HexDigit(n: int): (c: char)
    requires 0 <= n < 16
  {
    if n < 10 then ('0' as int + n) as char else ('A' as int + n - 10) as char
  }

  /** The value of a hexadecimal digit of either case. */
  function HexValue(c: char): Option<int>
  {
    if '0' <= c <= '9' then Some(c as int - '0' as int)
    else if 'A' <= c <= 'F' then Some(c as int - 'A' as int + 10)
    else if 'a' <= c <= 'f' then Some(c as int - 'a' as int + 10)
    else None
  }

  /** One octet as `%XY`. */
  function PercentByte(b: Byte): string
  {
    ['%', HexDigit(b as int / 16), HexDigit(b as int % 16)]
  }

  function PercentBytes(bs: seq<Byte>): (s: string)
    ensures |s| == 3 * |bs|
  {
    if |bs| == 0 then "" else PercentByte(bs[0]) + PercentBytes(bs[1..])
  }

  /** A continuation octet `10xxxxxx` carrying six bits. */
  function Cont(bits: int): Byte
    requires 0 <= bits < 64
  {
    (0x80 + bits) as Byte
  }

  /** The UTF-8 encoding of a Unicode scalar value (section 3 of RFC 3629). */
  function Utf8(c: char): (bs: seq<Byte>)
    ensures 1 <= |bs| <= 4
  {
    var n := c as int;
    var q1, r1 := n / 64, n % 64;
    var q2, r2 := q1 / 64, q1 % 64;
    var q3, r3 := q2 / 64, q2 % 64;
    if n < 0x80 then [n as Byte]
    else if n < 0x800 then [(0xC0 + q1) as Byte, Cont(r1)]
    else if n < 0x10000 then [(0xE0 + q2) as Byte, Cont(r2), Cont(r1)]
    else [(0xF0 + q3) as Byte, Cont(r3), Cont(r2), Cont(r1)]
  }

  function EncodeChar(c: char): string
  {
    if Unescaped(c) then [c] else PercentBytes(Utf8(c))
  }

  /**
   * `encodeURIComponent`. Its output is never shorter than its input and holds only unescaped
   * characters and `%`, so in particular no `&`, `=` or `#`.
   */
  function Encode(s: string): (r: string)
    ensures |r| >= |s|
    ensures forall i :: 0 <= i < |r| ==> EncodedChar(r[i])
    decreases |s|
  {
    if |s| == 0 then ""
    else
      PercentBytesAlphabet(Utf8(s[0]));
      EncodeChar(s[0]) + Encode(s[1..])
  }

  /** The octet written as `%XY` at position `i` of `s`, if there is one. */
  function ReadByte(s: string, i: nat): Option<Byte>
  {
    if i + 3 <= |s| && s[i] == '%' then
      match (HexValue(s[i + 1]), HexValue(s[i + 2]))
      case (Some(h), Some(l)) => Some((h * 16 + l) as Byte)
      case _ => None
    else None
  }

  /** The six payload bits of the continuation octet at position `i`, if one is there. */
  function ReadCont(s: string, i: nat): Option<int>
  {
    match ReadByte(s, i)
    case Some(b) => if 0x80 <= b < 0xC0 then Some(b as int - 0x80) else None
    case None => None
  }

  /**
   * Decodes the escape sequence at the start of `s` into one character and the number of
   * input characters it spans. Lead octets that start no UTF-8 sequence, missing or malformed
   * continuation octets, overlong forms, surrogates and values above U+10FFFF are rejected,
   * as `decodeURIComponent` rejects them with a `URIError`.
   */
  function DecodeEscape(s: string): Option<(char, nat)>
  {
    match ReadByte(s, 0)
    case None => None
    case Some(b0) =>
      if b0 < 0x80 then Some(((b0 as int) as char, 3))
      else if 0xC0 <= b0 < 0xE0 then
        (match ReadCont(s, 3)
         case None => None
         case Some(c1) =>
           var n := (b0 as int - 0xC0) * 64 + c1;
           if 0x80 <= n then Some((n as char, 6)) else None)
      else if 0xE0 <= b0 < 0xF0 then
        (match (ReadCont(s, 3), ReadCont(s, 6))
         case (Some(c1), Some(c2)) =>
           var n := ((b0 as int - 0xE0) * 64 + c1) * 64 + c2;
           if 0x800 <= n && !(0xD800 <= n < 0xE000) then Some((n as char, 9)) else None
         case _ => None)
      else if 0xF0 <= b0 < 0xF8 then
        (match (ReadCont(s, 3), ReadCont(s, 6), ReadCont(s, 9))
         case (Some(c1), Some(c2), Some(c3)) =>
           var n := (((b0 as int - 0xF0) * 64 + c1) * 64 + c2) * 64 + c3;
           if 0x10000 <= n < 0x110000 then Some((n as char, 12)) else None
         case _ => None)
      else None
  }

  /** `decodeURIComponent`: `None` stands for the `URIError` it throws on a malformed input. */
  function Decode(s: string): (r: Option<string>)
    ensures r.Some? ==> |r.value| <= |s| && (|s| > 0 ==> |r.value| > 0)
    decreases |s|
  {
    if |s| == 0 then Some("")
    else if s[0] != '%' then
      match Decode(s[1..])
      case Some(rest) => Some([s[0]] + rest)
      case None => None
    else
      match DecodeEscape(s)
      case Some((c, k)) =>
        if 0 < k <= |s| then
          (match Decode(s[k..])
           case Some(rest) => Some([c] + rest)
           case None => None)
        else None
      case None => None
  }

  /** Text without a `%` decodes to itself. */
  lemma {:induction false} DecodePlain(s: string)
    requires '%' !in s
    ensures Decode(s) == Some(s)
    decreases |s|
  {
    if |s| != 0 {
      DecodePlain(s[1..]);
      assert s == [s[0]] + s[1..];
    }
  }

  lemma HexRoundTrip(n: int)
    requires 0 <= n < 16
    ensures HexValue(HexDigit(n)) == Some(n)
  {
  }

  /** The `%XY` form of an octet reads back as that octet. */
  lemma ReadPercentByte(b: Byte, s: string, i: nat)
    requires i + 3 <= |s| && s[i..i + 3] == PercentByte(b)
    ensures ReadByte(s, i) == Some(b)
  {
    HexRoundTrip(b as int / 16);
    HexRoundTrip(b as int % 16);
    assert s[i] == '%' && s[i + 1] == HexDigit(b as int / 16) && s[i + 2] == HexDigit(b as int % 16);
  }

  lemma PercentBytesAt(bs: seq<Byte>, rest: string, j: nat)
    requires j < |bs|
    ensures var s := PercentBytes(bs) + rest;
            3 * j + 3 <= |s| && s[3 * j..3 * j + 3] == PercentByte(bs[j])
    decreases |bs|
  {
    if j > 0 {
      PercentBytesAt(bs[1..], rest, j - 1);
      assert PercentBytes(bs) + rest == PercentByte(bs[0]) + (PercentBytes(bs[1..]) + rest);
    }
  }

  /** The escape sequence produced for an escaped character decodes to that character. */
  lemma DecodeEscapeOfUtf8(c: char, rest: string)
    ensures DecodeEscape(PercentBytes(Utf8(c)) + rest) == Some((c, 3 * |Utf8(c)|))
  {
    var bs := Utf8(c);
    var s := PercentBytes(bs) + rest;
    forall j | 0 <= j < |bs|
      ensures ReadByte(s, 3 * j) == Some(bs[j])
    {
      PercentBytesAt(bs, rest, j);
      ReadPercentByte(bs[j], s, 3 * j);
    }
    assert ReadByte(s, 0) == Some(bs[0]);
    if |bs| >= 2 { assert ReadByte(s, 3) == Some(bs[1]); }
    if |bs| >= 3 { assert ReadByte(s, 6) == Some(bs[2]); }
    if |bs| >= 4 { assert ReadByte(s, 9) == Some(bs[3]); }
  }

  /** Decoding one encoded character in front of any text peels off exactly that character. */
  lemma DecodeEncodedChar(c: char, rest: string)
    ensures Decode(EncodeChar(c) + rest) == match Decode(rest)
                                            case Some(r) => Some([c] + r)
                                            case None => None
  {
    var s := EncodeChar(c) + rest;
    if Unescaped(c) {
      assert s[0] == c && s[1..] == rest;
    } else {
      var bs := Utf8(c);
      DecodeEscapeOfUtf8(c, rest);
      assert s[0] == '%';
      assert s[3 * |bs|..] == rest;
    }
  }

  /** `decodeURIComponent(encodeURIComponent(s)) == s` for every string. */
  lemma {:induction false} DecodeEncode(s: string)
    ensures Decode(Encode(s)) == Some(s)
    decreases |s|
  {
    if |s| != 0 {
      DecodeEncode(s[1..]);
      DecodeEncodedChar(s[0], Encode(s[1..]));
      assert [s[0]] + s[1..] == s;
    }
  }

  /** Encoding works character by character, so it distributes over concatenation. */
  lemma {:induction false} EncodeAppend(a: string, b: string)
    ensures Encode(a + b) == Encode(a) + Encode(b)
    decreases |a|
  {
    if |a| != 0 {
      assert (a + b)[1..] == a[1..] + b;
      EncodeAppend(a[1..], b);
      assert Encode(a + b) == EncodeChar(a[0]) + Encode(a[1..] + b);
    } else {
      assert a + b == b;
    }
  }

  /** A string made only of unescaped characters encodes to itself. */
  lemma {:induction false} EncodeUnescaped(s: string)
    requires forall i :: 0 <= i < |s| ==> Unescaped(s[i])
    ensures Encode(s) == s
    decreases |s|
  {
    if |s| != 0 {
      EncodeUnescaped(s[1..]);
      assert [s[0]] + s[1..] == s;
    }
  }

  /** The characters that can appear in an encoded string: unescaped ones, `%` and upper-case hexadecimal digits. */
  predicate EncodedChar(c: char)
  {
    Unescaped(c) || c == '%'
  }

  lemma {:induction false} PercentBytesAlphabet(bs: seq<Byte>)
    ensures forall i :: 0 <= i < |PercentBytes(bs)| ==> EncodedChar(PercentBytes(bs)[i])
    decreases |bs|
  {
    if |bs| != 0 {
      PercentBytesAlphabet(bs[1..]);
    }
  }
}
